=== FILE: README.md ===
# LiquidSurface world ownership, command queue and particle snapshots in Dafny

LiquidSurface runs a LiquidFun particle simulation on a physics thread and draws it from a render thread. Both threads share one native `World` and its particle systems. This project models the part of the library that keeps that sharing safe and consistent:

- **`WorldLock`** (module `WorldLock`). This is the physics thread's world and its `ReentrantLock`. Mutations are queued as commands: physics commands, camera commands, and the `UPDATE_TRANSFORMATIONS` sentinel that recomputes the transforms. `stepWorld` drains the queue and steps the world with a fixed 1/120 s and iterations 6/2/5. The module also covers the camera and the screen-world geometry that the transforms derive from.
- **`LiquidWorld`** (module `LiquidWorld`). This is the render side's world singleton and its own lock. It covers:
  - the render-world size, where the shorter screen side spans 3 world units;
  - the boundary body, four walls placed around the canvas, each 2·BOUNDARY_THICKNESS (40) thick, given to `setAsBox` as the half-extent BOUNDARY_THICKNESS (20);
  - world creation and deletion;
  - the acquire/release pairs for the world and for particle systems, which share one lock;
  - stepping and solid-object creation.
- **`ParticleRenderer`** (module `ParticleRenderer`). Per frame it copies the particle attributes into direct buffers under the particle-system lock. It then draws water groups in one pass and defers every other group to a render list for a second pass. It also builds the world-to-screen transform for the surface's orientation.
- **`DrawableParticleSystem`** (module `DrawableParticleSystem`). This is the same snapshot and two-pass drawing for one particle system with four buffers. Here the water flag is `particleGroupCanBeEmpty`.
- **`LiquidRenderThread`** (module `RenderThread`). These are the render thread's flags and dimensions and one iteration of its frame-pacing loop.

Shared modules:

- `Locks` models a `ReentrantLock` as a hold count plus a log of lock and unlock events. "Scoped" means one operation used the lock as exactly one critical section and left the hold count as it found it.
- `Engine` treats the native LiquidFun engine as opaque: worlds, bodies, fixtures, particle systems and steps.
- `Buffers` models a `java.nio` direct buffer.
- `Groups` holds the two draw passes shared by both renderers.

A Java `null` world shows up as an `Option`. A `NullPointerException` raised inside a `try { … } finally { unlock(); }` is an `Outcome`, and the lock is still released.

## Model

| member | source | states |
|---|---|---|
| Locks.AcquireLock | liquidview/src/main/java/com/google/fpl/liquidfunpaint/LiquidWorld.java:164-167 | `lock()` always succeeds for the owner, even when it already holds the lock (reentrant): the hold count rises by one and stays in agreement with the event log |
| Locks.ReleaseLock | liquidview/src/main/java/com/google/fpl/liquidfunpaint/LiquidWorld.java:172-174 | `unlock()` is legal only while the lock is held and lowers the hold count by one, keeping count and log in agreement |
| Locks.LockUnlock | liquidview/src/main/java/com/google/fpl/liquidfunpaint/LiquidWorld.java:201-211 | the `acquire; try { body } finally { release }` pattern, whatever the body's outcome, is one critical section that restores the hold count |
| Locks.WrapScoped | liquidview/src/main/java/com/google/fpl/liquidfunpaint/physics/WorldLock.java:87-99 | a scoped operation nested inside another critical section (resetWorld calling deleteWorld) leaves the outer operation a single critical section |
| Locks.WrapTwoScoped | liquidview/src/main/java/com/google/fpl/liquidfunpaint/renderer/ParticleRenderer.java:96-133 | two scoped operations run one after the other inside a critical section (the draw passes inside onDrawFrame) leave it a single critical section |
| Locks.Chain | liquidview/src/main/java/com/google/fpl/liquidfunpaint/LiquidWorld.java:127-134 | operations that each leave the lock balanced leave it balanced when run in sequence |
| Locks.ScopedIsRestored | liquidview/src/main/java/com/google/fpl/liquidfunpaint/LiquidWorld.java:142-158 | a single critical section is in particular balanced use of the lock |
| Locks.HeldThroughout | liquidview/src/main/java/com/google/fpl/liquidfunpaint/physics/WorldLock.java:172-184 | at every point strictly inside a critical section, the hold count is above the count at entry, so no other thread can enter |
| Locks.BalancedConcat | liquidview/src/main/java/com/google/fpl/liquidfunpaint/LiquidWorld.java:127-134 | the concatenation of two balanced event logs is balanced |
| Locks.WrapIsCriticalSection | liquidview/src/main/java/com/google/fpl/liquidfunpaint/physics/WorldLock.java:87-99 | taking the lock around a balanced body yields one critical section |
| Engine.CreateBody | liquidview/src/main/java/com/google/fpl/liquidfunpaint/LiquidWorld.java:83 | the new body gets an id not in use and starts without fixtures; every other body, the gravity and the step history are unchanged |
| Engine.DestroyBody | liquidview/src/main/java/com/google/fpl/liquidfunpaint/LiquidWorld.java:75-77 | exactly the given body is removed; the other bodies, the gravity and the step history are unchanged |
| Engine.CreateFixture | liquidview/src/main/java/com/google/fpl/liquidfunpaint/LiquidWorld.java:93 | the shape is appended to the fixtures of that one body; the body's kind and all other bodies are unchanged |
| Engine.CreateFixtures | liquidview/src/main/java/com/google/fpl/liquidfunpaint/LiquidWorld.java:86-117 | creating fixtures one shape at a time appends exactly those shapes, in order, to the one body |
| Engine.Step | liquidview/src/main/java/com/google/fpl/liquidfunpaint/LiquidWorld.java:205-207 | a step appends one record to the step history: its arguments, the lock's hold count, and the gravity and bodies it integrated; bodies and gravity are otherwise unchanged |
| Engine.SetGravity | liquidview/src/main/java/com/google/fpl/liquidfunpaint/physics/WorldLock.java:195 | the gravity becomes the given vector; bodies and steps are unchanged |
| Engine.NewWorld | liquidview/src/main/java/com/google/fpl/liquidfunpaint/LiquidWorld.java:129 | a new world has the given gravity, no bodies and no steps |
| Engine.Positions | liquidview/src/main/java/com/google/fpl/liquidfunpaint/renderer/ParticleRenderer.java:107-108 | the position array the engine copies from lists every particle's position, at the particle's index |
| Buffers.Allocate | liquidview/src/main/java/com/google/fpl/liquidfunpaint/renderer/ParticleRenderer.java:80-90 | `allocateDirect(stride * max)` has that capacity, room for `max` particles, zero contents, position 0 and limit at capacity |
| Buffers.Rewind | liquidview/src/main/java/com/google/fpl/liquidfunpaint/renderer/ParticleRenderer.java:98-100 | `rewind` sets the position to 0 and keeps the limit, the capacity and the contents |
| Buffers.Clear | liquidview/src/main/java/com/google/fpl/liquidfunpaint/renderer/ParticleRenderer.java:366-370 | `clear` sets the position to 0 and the limit to the capacity; the contents are not erased |
| Buffers.CopyPrefix | liquidview/src/main/java/com/google/fpl/liquidfunpaint/renderer/ParticleRenderer.java:105-112 | copying particles [0, n) overwrites exactly the first n slots with the source's first n elements; the rest of the buffer and its position, limit and capacity are unchanged |
| Buffers.ClearTwice | liquidview/src/main/java/com/google/fpl/liquidfunpaint/renderer/ParticleRenderer.java:366-370 | clearing twice is clearing once |
| Groups.DrawGroup | liquidview/src/main/java/com/google/fpl/liquidfunpaint/renderer/ParticleRenderer.java:143-151 | a group's draw covers exactly its particle range [bufferIndex, bufferIndex + count) |
| Groups.DrawAll | liquidview/src/main/java/com/google/fpl/liquidfunpaint/renderer/ParticleRenderer.java:232-234 | one draw per group, in list order |
| Groups.DrawWaterParticles | liquidview/src/main/java/com/google/fpl/liquidfunpaint/renderer/ParticleRenderer.java:179-197 | the single walk of the group list draws exactly the groups whose flags equal the water flags, in order, and appends exactly the others, in order, to the render list without clearing it first |
| Groups.DrawNonWaterParticles | liquidview/src/main/java/com/google/fpl/liquidfunpaint/renderer/ParticleRenderer.java:229-237 | the second pass draws every render-list group once, in order, over its own particle range |
| Groups.PartitionIsPermutation | liquidview/src/main/java/com/google/fpl/liquidfunpaint/renderer/ParticleRenderer.java:135-138 | the water groups and the deferred groups together are the group list as a multiset: every group is drawn exactly as often as it occurs |
| Groups.PartitionBySide | liquidview/src/main/java/com/google/fpl/liquidfunpaint/renderer/ParticleRenderer.java:186-191 | the first pass holds only water groups and the render list only non-water groups |
| Groups.PartitionKeepsParticleTotal | liquidview/src/main/java/com/google/fpl/liquidfunpaint/renderer/ParticleRenderer.java:135-138 | the two passes between them draw as many particles as the groups hold |
| Groups.SumCountsAppend | liquidview/src/main/java/com/google/fpl/liquidfunpaint/renderer/ParticleRenderer.java:135-138 | particle totals add up over concatenated group lists |
| Groups.PartitionMembership | liquidview/src/main/java/com/google/fpl/liquidfunpaint/renderer/ParticleRenderer.java:184-194 | a group is in the group list if and only if it is in one of the two passes |
| Groups.DrawsInsideSnapshot | liquidview/src/main/java/com/google/fpl/liquidfunpaint/renderer/ParticleRenderer.java:105-117 | when the engine keeps groups within the live particles, every draw of either pass reads only the particles [0, count) copied this frame |
| WorldLock.ParticleScale | liquidview/src/main/java/com/google/fpl/liquidfunpaint/physics/WorldLock.java:267-299 | the particle transform scales x and y equally, by a positive factor, whatever the screen orientation |
| WorldLock.Derive | liquidview/src/main/java/com/google/fpl/liquidfunpaint/physics/WorldLock.java:133-138 | updateTransformations derives the transforms from the camera it is given; particles are not stretched, and the solid transform maps the screen world's width and height to 1 |
| WorldLock.EditWorld | liquidview/src/main/java/com/google/fpl/liquidfunpaint/physics/WorldLock.java:204-206 | a queued physics command edits the world through the engine: a new body with its fixtures under a fresh id, a removed body, or a new gravity; the step history is untouched |
| WorldLock.Apply | liquidview/src/main/java/com/google/fpl/liquidfunpaint/physics/WorldLock.java:221-225 | running one command logs it with the lock's current hold count; a physics command edits a live world (and leaves a missing one missing), a camera edit moves only the camera, the sentinel recomputes the transforms from the current camera and screen world; the lock, the queue and the screen world are untouched |
| WorldLock.StampedEntries | liquidview/src/main/java/com/google/fpl/liquidfunpaint/physics/WorldLock.java:221-225 | the log of a drain holds, at each index, the command at that index of the queue together with the hold count it ran at |
| WorldLock.ApplyAllLogs | liquidview/src/main/java/com/google/fpl/liquidfunpaint/physics/WorldLock.java:221-225 | running a queue logs exactly its commands in FIFO order, each with the lock's hold count, keeps a world present or absent, and changes neither the lock, the queue nor the screen world |
| WorldLock.ApplyAllSplit | liquidview/src/main/java/com/google/fpl/liquidfunpaint/physics/WorldLock.java:221-225 | running a queue a + b is running a and then b |
| WorldLock.CameraCommandsKeepWorld | liquidview/src/main/java/com/google/fpl/liquidfunpaint/physics/WorldLock.java:242-265 | a queue holding only camera edits and sentinels leaves the world exactly as it was |
| WorldLock.GravityKept | liquidview/src/main/java/com/google/fpl/liquidfunpaint/physics/WorldLock.java:204-206 | commands other than gravity commands keep a live world's gravity |
| WorldLock.QueuedGravityWins | liquidview/src/main/java/com/google/fpl/liquidfunpaint/physics/WorldLock.java:204-206 | after a drain, the world's gravity is the one set by the last queued gravity command |
| WorldLock.RecomputationsCountSentinels | liquidview/src/main/java/com/google/fpl/liquidfunpaint/physics/WorldLock.java:20-25 | the number of transform recomputations is the number of sentinels in the queue |
| WorldLock.TransformsFollowFinalCamera | liquidview/src/main/java/com/google/fpl/liquidfunpaint/physics/WorldLock.java:208-215 | a queue that ends with the sentinel leaves transforms derived from the final camera |
| WorldLock.RunPendingRunnables | liquidview/src/main/java/com/google/fpl/liquidfunpaint/physics/WorldLock.java:221-225 | polling until empty runs every pending command in order (matching the reference ApplyAll) and leaves the queue empty |
| WorldLock.WithoutAppend | liquidview/src/main/java/com/google/fpl/liquidfunpaint/physics/WorldLock.java:209-214 | filtering out the sentinel distributes over concatenation |
| WorldLock.RemoveFirstCount | liquidview/src/main/java/com/google/fpl/liquidfunpaint/physics/WorldLock.java:211-213 | `Queue.remove(o)` removes exactly one occurrence when there is one, and nothing otherwise |
| WorldLock.RemoveFirstKeepsOthers | liquidview/src/main/java/com/google/fpl/liquidfunpaint/physics/WorldLock.java:211-213 | removing a sentinel leaves every other command in place and in order |
| WorldLock.RemoveFirstTail | liquidview/src/main/java/com/google/fpl/liquidfunpaint/physics/WorldLock.java:209-213 | removing the first sentinel from a queue with a command appended keeps that command last |
| WorldLock.AddPhysicsCommand | liquidview/src/main/java/com/google/fpl/liquidfunpaint/physics/WorldLock.java:204-206 | the command is appended at the tail and nothing else changes |
| WorldLock.CameraQueue | liquidview/src/main/java/com/google/fpl/liquidfunpaint/physics/WorldLock.java:209-214 | the queue after a camera edit ends with the edit followed by the sentinel; it holds one sentinel if it had none and as many as before otherwise; apart from sentinels it is the old queue plus the edit |
| WorldLock.CameraQueueFacts | liquidview/src/main/java/com/google/fpl/liquidfunpaint/physics/WorldLock.java:209-214 | the three steps of addCameraCommand (append, remove the stale sentinel, append a fresh one) give the queue described for CameraQueue |
| WorldLock.AddCameraCommand | liquidview/src/main/java/com/google/fpl/liquidfunpaint/physics/WorldLock.java:208-215 | the edit is queued followed by a fresh sentinel, any stale sentinel is dropped, the other commands keep their order and nothing but the queue changes |
| WorldLock.ClearPhysicsCommands | liquidview/src/main/java/com/google/fpl/liquidfunpaint/physics/WorldLock.java:217-219 | the queue becomes empty and nothing else changes |
| WorldLock.TranslateCamera | liquidview/src/main/java/com/google/fpl/liquidfunpaint/physics/WorldLock.java:242-255 | a translation is queued as a camera edit followed by the sentinel; the camera does not move until the queue is drained |
| WorldLock.RotateCamera | liquidview/src/main/java/com/google/fpl/liquidfunpaint/physics/WorldLock.java:257-265 | a rotation is queued as a camera edit followed by the sentinel; the camera does not move until the queue is drained |
| WorldLock.CameraBatchHasOneSentinel | liquidview/src/main/java/com/google/fpl/liquidfunpaint/physics/WorldLock.java:208-215 | however many camera edits are queued, exactly one sentinel is pending afterwards, and it is last |
| WorldLock.CameraBatchKeepsOrder | liquidview/src/main/java/com/google/fpl/liquidfunpaint/physics/WorldLock.java:208-215 | the edits of a batch are queued in order after what was pending |
| WorldLock.AddCameraCommandsKeepsRest | liquidview/src/main/java/com/google/fpl/liquidfunpaint/physics/WorldLock.java:208-215 | queueing camera edits changes nothing but the queue |
| WorldLock.AppendLast | liquidview/src/main/java/com/google/fpl/liquidfunpaint/physics/WorldLock.java:208-215 | appending the last edit of a batch after the others gives the whole batch |
| WorldLock.CameraBatchRecomputesOnce | liquidview/src/main/java/com/google/fpl/liquidfunpaint/physics/WorldLock.java:20-25 | draining a batch of camera edits recomputes the transforms exactly once, from the camera after the last edit |
| WorldLock.QueueInvariantPreserved | liquidview/src/main/java/com/google/fpl/liquidfunpaint/physics/WorldLock.java:204-219 | queueing a physics command other than the sentinel, translating or rotating the camera, clearing the queue, resetWorld and setWorldDimensions all keep at most one sentinel pending |
| WorldLock.GetCameraDistance | liquidview/src/main/java/com/google/fpl/liquidfunpaint/physics/WorldLock.java:168-170 | the distance is how far the camera position lies behind the plane z = −1: positive exactly when z < −1, zero exactly at z = −1 |
| WorldLock.InitialCameraDistance | liquidview/src/main/java/com/google/fpl/liquidfunpaint/physics/WorldLock.java:168-170 | getCameraDistance, −(z + 1) of the camera position, is 0 for the initial camera at z = −1 |
| WorldLock.TranslateKeepsViewDirection | liquidview/src/main/java/com/google/fpl/liquidfunpaint/physics/WorldLock.java:242-255 | a translation moves position and look-at by the same vector, so the view direction is kept and the camera distance changes by −dz |
| WorldLock.RotateOverwrites | liquidview/src/main/java/com/google/fpl/liquidfunpaint/physics/WorldLock.java:257-265 | a rotation sets pan and tilt outright: the earlier angles do not matter and the last rotation wins |
| WorldLock.CreateWorld | liquidview/src/main/java/com/google/fpl/liquidfunpaint/physics/WorldLock.java:83-85 | a new empty world with zero gravity replaces the reference, without the lock; nothing else changes |
| WorldLock.DeleteWorld | liquidview/src/main/java/com/google/fpl/liquidfunpaint/physics/WorldLock.java:105-117 | afterwards there is no world; the lock is taken and released exactly once (the log gains one lock() and one unlock()); nothing else changes |
| WorldLock.ResetWorld | liquidview/src/main/java/com/google/fpl/liquidfunpaint/physics/WorldLock.java:87-99 | afterwards there is a new empty world with zero gravity; the log gains lock(), the nested delete's lock() and unlock(), then unlock(), which together form a single critical section; nothing else changes |
| WorldLock.StepWorld | liquidview/src/main/java/com/google/fpl/liquidfunpaint/physics/WorldLock.java:172-184 | the lock is taken and released exactly once; every queued command runs in order with the lock held (each logged at the hold count one above entry), then the world those commands left is stepped once with 1/120 s and iterations 6/2/5, the step recording the same hold count; the camera, transforms and recomputation count are what the queued commands leave, and the screen size is kept; a null world gives a NullPointerException after the drain, with the lock released |
| WorldLock.ApplyAllIgnoresLock | liquidview/src/main/java/com/google/fpl/liquidfunpaint/physics/WorldLock.java:221-225 | what running commands does to the world, the camera, the transforms and the screen world does not depend on the lock's hold count |
| WorldLock.SetGravity | liquidview/src/main/java/com/google/fpl/liquidfunpaint/physics/WorldLock.java:190-201 | the lock is taken and released exactly once (the log gains one lock() and one unlock()); the gravity is set and the bodies and recorded steps are kept; a null world gives a NullPointerException with the lock released |
| WorldLock.ScaledSide | liquidview/src/main/java/com/google/fpl/liquidfunpaint/physics/WorldLock.java:119-128 | the longer side scaled by WORLD_SCALE over the shorter side is at least WORLD_SCALE |
| WorldLock.ScreenWorldFor | liquidview/src/main/java/com/google/fpl/liquidfunpaint/physics/WorldLock.java:119-128 | the shorter screen side spans WORLD_SCALE; the screen world has the screen's aspect ratio; the stored ratio is height/width |
| WorldLock.SetWorldDimensions | liquidview/src/main/java/com/google/fpl/liquidfunpaint/physics/WorldLock.java:119-131 | the screen world takes the screen's aspect with the shorter side WORLD_SCALE, and the transforms are recomputed once, at once, from the current camera; nothing else changes |
| WorldLock.SolidsAreNotStretched | liquidview/src/main/java/com/google/fpl/liquidfunpaint/physics/WorldLock.java:356-365 | after setWorldDimensions the solid-world transform scales x and y by the same factor per screen pixel, so solids are not stretched |
| LiquidWorld.InitialInvariant | liquidview/src/main/java/com/google/fpl/liquidfunpaint/LiquidWorld.java:19-43 | the singleton as constructed has no world, no boundary body and an unheld lock, so it satisfies the boundary invariant |
| LiquidWorld.RenderDimensions | liquidview/src/main/java/com/google/fpl/liquidfunpaint/LiquidWorld.java:51-59 | in landscape (height < width) the height is WORLD_SPAN, otherwise the width is; either way the render world has the surface's aspect ratio |
| LiquidWorld.RenderDimensionsShorterSide | liquidview/src/main/java/com/google/fpl/liquidfunpaint/LiquidWorld.java:51-59 | the shorter surface side spans exactly WORLD_SPAN and the longer one at least WORLD_SPAN |
| LiquidWorld.SpanMonotone | liquidview/src/main/java/com/google/fpl/liquidfunpaint/LiquidWorld.java:55-57 | scaling WORLD_SPAN by a ratio of at least one gives at least WORLD_SPAN |
| LiquidWorld.HasWorld | liquidview/src/main/java/com/google/fpl/liquidfunpaint/LiquidWorld.java:65-67 | true exactly when the world reference is non-null |
| LiquidWorld.Walls | liquidview/src/main/java/com/google/fpl/liquidfunpaint/LiquidWorld.java:85-117 | the boundary is four boxes, top, bottom, left and right, each 2·BOUNDARY_THICKNESS (40) thick across the side it guards, given to `setAsBox` as the half-extent BOUNDARY_THICKNESS |
| LiquidWorld.WallsEncloseCanvas | liquidview/src/main/java/com/google/fpl/liquidfunpaint/LiquidWorld.java:85-117 | the four boundary boxes touch the canvas on its four sides and lie entirely outside it, so particles are held inside |
| LiquidWorld.InitBoundaries | liquidview/src/main/java/com/google/fpl/liquidfunpaint/LiquidWorld.java:70-125 | the lock is taken and released exactly once (the log gains one lock() and one unlock()); the previous boundary body (if any) is destroyed and exactly one fresh body with the four walls replaces it, other bodies untouched; without a world the result is a NullPointerException with the lock released |
| LiquidWorld.BoundaryAfterRebuild | liquidview/src/main/java/com/google/fpl/liquidfunpaint/LiquidWorld.java:75-83 | after the rebuild the new body is the only boundary body in the world |
| LiquidWorld.InitializeWorldDimensions | liquidview/src/main/java/com/google/fpl/liquidfunpaint/LiquidWorld.java:51-63 | the render-world size follows the orientation rule, then the boundary is rebuilt around that new canvas: the old boundary body is removed, a fresh one with the four walls of the new size is added, and every other body, the gravity, the recorded steps and the particle systems are kept; without a world only the size changes |
| LiquidWorld.DeleteWorld | liquidview/src/main/java/com/google/fpl/liquidfunpaint/LiquidWorld.java:142-158 | the lock is taken and released exactly once (the log gains one lock() and one unlock()); the boundary reference and the world are dropped; the particle systems are cleared only if there was a world |
| LiquidWorld.DeleteWorldTwice | liquidview/src/main/java/com/google/fpl/liquidfunpaint/LiquidWorld.java:142-158 | deleting a deleted world changes only the lock's log |
| LiquidWorld.CreateNewWorld | liquidview/src/main/java/com/google/fpl/liquidfunpaint/LiquidWorld.java:127-134 | afterwards there is a zero-gravity world with no steps whose only body is the boundary with its four walls, and a single empty default particle system; the render size is kept; the log gains lock(), unlock(), lock(), unlock(): the delete and the build are two separate critical sections |
| LiquidWorld.AcquireWorld | liquidview/src/main/java/com/google/fpl/liquidfunpaint/LiquidWorld.java:164-167 | takes the world's own lock once more and hands out the world reference as it is, null included; nothing else changes |
| LiquidWorld.ReleaseWorld | liquidview/src/main/java/com/google/fpl/liquidfunpaint/LiquidWorld.java:172-174 | releases the world's lock once and changes nothing else |
| LiquidWorld.ReleaseParticleSystem | liquidview/src/main/java/com/google/fpl/liquidfunpaint/LiquidWorld.java:196-198 | releases the same lock once and changes nothing else, exactly as releaseWorld does |
| LiquidWorld.AcquireParticleSystem | liquidview/src/main/java/com/google/fpl/liquidfunpaint/LiquidWorld.java:183-186 | takes the world's own lock and returns the system under the key, or null when there is none |
| LiquidWorld.AcquireDefaultParticleSystem | liquidview/src/main/java/com/google/fpl/liquidfunpaint/LiquidWorld.java:188-191 | takes the world's own lock and returns the default system, or null when there is none |
| LiquidWorld.OneLock | liquidview/src/main/java/com/google/fpl/liquidfunpaint/LiquidWorld.java:176-198 | acquiring the world and acquiring a particle system take the same lock: either release ends either acquisition |
| LiquidWorld.StepWorld | liquidview/src/main/java/com/google/fpl/liquidfunpaint/LiquidWorld.java:201-211 | the lock is taken and released exactly once (the log gains one lock() and one unlock()); the world becomes exactly the old world stepped once with the caller's dt and iterations 6/2/5, the step recording the hold count one above entry, so it ran under the lock; bodies are unchanged; a null world gives a NullPointerException with the lock released |
| LiquidWorld.CreatePhysicsObject | liquidview/src/main/java/com/google/fpl/liquidfunpaint/LiquidWorld.java:236-245 | the lock is taken and released exactly once (the log gains one lock() and one unlock()); one new solid body with the polygon is added under a fresh id, and the gravity and recorded steps are kept; with a null world the result is a NullPointerException (an assumption about SolidWorld, listed under Left out) with the lock released |
| LiquidWorld.InvariantPreserved | liquidview/src/main/java/com/google/fpl/liquidfunpaint/LiquidWorld.java:70-158 | every operation keeps the boundary reference consistent with the world: no boundary without a world, and at most the recorded one as the world's boundary body |
| ParticleRenderer.New | liquidview/src/main/java/com/google/fpl/liquidfunpaint/renderer/ParticleRenderer.java:80-90 | three buffers of 8, 4 and 4 bytes per particle for the maximum count, and an empty render list |
| ParticleRenderer.SnapshotFits | liquidview/src/main/java/com/google/fpl/liquidfunpaint/renderer/ParticleRenderer.java:80-112 | the copy of count particles fits the buffers if and only if count is at most the maximum particle count |
| ParticleRenderer.Rewound | liquidview/src/main/java/com/google/fpl/liquidfunpaint/renderer/ParticleRenderer.java:97-101 | the per-frame reset rewinds the three buffers, keeps their contents, limits and capacities, and clears the render list; every other field (maximum count, texture scale, world transform) is kept |
| ParticleRenderer.Snapshot | liquidview/src/main/java/com/google/fpl/liquidfunpaint/renderer/ParticleRenderer.java:105-112 | the first getParticleCount() slots of the position, colour and weight buffers become exactly the particles' attributes; the remaining slots, the positions, limits and every other field are kept, and the buffers keep their sizes |
| ParticleRenderer.DrawPasses | liquidview/src/main/java/com/google/fpl/liquidfunpaint/renderer/ParticleRenderer.java:135-138 | the water pass then the other pass each take and release the lock once, so the log gains lock(), unlock(), lock(), unlock() and both group walks run one hold above the caller's; the water groups are drawn in list order, the others are appended to the render list and then drawn from it; the state is otherwise unchanged |
| ParticleRenderer.OnDrawFrame | liquidview/src/main/java/com/google/fpl/liquidfunpaint/renderer/ParticleRenderer.java:96-133 | the log gains lock(), then a nested lock()/unlock() for each draw pass, then unlock(); the trace shows the copy ran at the entry hold count plus one and both group walks at plus two, so all three happen while the lock is held; the three buffers get exactly the live particles' attributes in their first slots, the rest and the limits kept, water groups are drawn first, then the rest; without a default system the result is a NullPointerException with only lock() and unlock() logged and no copy or walk |
| ParticleRenderer.FrameDrawsEveryGroupOnce | liquidview/src/main/java/com/google/fpl/liquidfunpaint/renderer/ParticleRenderer.java:135-138 | across the two passes a frame draws every group exactly as often as it occurs, one draw per group, and a group goes to the water pass exactly when its flags equal the water flags |
| ParticleRenderer.Landscape | liquidview/src/main/java/com/google/fpl/liquidfunpaint/renderer/ParticleRenderer.java:276-286 | in landscape the texture keeps its x scale, and the world transform scales x by 2/W and shifts it by −1 |
| ParticleRenderer.Portrait | liquidview/src/main/java/com/google/fpl/liquidfunpaint/renderer/ParticleRenderer.java:288-298 | in portrait the texture keeps its y scale, and the world transform scales y by 2/H and shifts it by −1 |
| ParticleRenderer.OnSurfaceChanged | liquidview/src/main/java/com/google/fpl/liquidfunpaint/renderer/ParticleRenderer.java:246-256 | portrait exactly when height > width, with texture scale (h/w, 1) in portrait and (1, w/h) in landscape; for a render world of the screen's aspect the world transform scales x and y alike, and the world transform followed by the texture scale maps the canvas corners onto the clip-space corners |
| ParticleRenderer.OrientationFits | liquidview/src/main/java/com/google/fpl/liquidfunpaint/renderer/ParticleRenderer.java:249-256 | in both orientation branches, the world transform followed by the texture scale maps the canvas onto clip space for a render world of the screen's aspect |
| ParticleRenderer.InverseRatio | liquidview/src/main/java/com/google/fpl/liquidfunpaint/renderer/ParticleRenderer.java:249 | the inverse of the ratio height/width is width/height, the factor the landscape texture scale uses |
| ParticleRenderer.AspectHeight | liquidview/src/main/java/com/google/fpl/liquidfunpaint/renderer/ParticleRenderer.java:249 | a render world of the screen's aspect has height W times the ratio |
| ParticleRenderer.LandscapeFits | liquidview/src/main/java/com/google/fpl/liquidfunpaint/renderer/ParticleRenderer.java:276-286 | the landscape world transform scales x and y alike, and followed by the texture scale it maps (0,0) to (−1,−1) and (W,H) to (1,1); the world transform alone maps (W,H) to (1, ratio) |
| ParticleRenderer.PortraitFits | liquidview/src/main/java/com/google/fpl/liquidfunpaint/renderer/ParticleRenderer.java:288-298 | the portrait world transform scales x and y alike, and followed by the texture scale it maps (0,0) to (−1,−1) and (W,H) to (1,1) |
| ParticleRenderer.NoStretch | liquidview/src/main/java/com/google/fpl/liquidfunpaint/renderer/ParticleRenderer.java:276-298 | with the render world LiquidWorld derives for the same surface, one world unit covers as many pixels horizontally as vertically |
| ParticleRenderer.ScalePerPixel | liquidview/src/main/java/com/google/fpl/liquidfunpaint/renderer/ParticleRenderer.java:276-298 | a clip-space scale of 2/W across width pixels is a per-pixel scale of W/width |
| ParticleRenderer.Reset | liquidview/src/main/java/com/google/fpl/liquidfunpaint/renderer/ParticleRenderer.java:366-370 | the three buffers get position 0 and limit at capacity; contents and everything else are kept |
| ParticleRenderer.ResetTwice | liquidview/src/main/java/com/google/fpl/liquidfunpaint/renderer/ParticleRenderer.java:366-370 | resetting twice is resetting once |
| DrawableParticleSystem.New | liquidview/src/main/java/com/google/fpl/liquidfunpaint/DrawableParticleSystem.java:31-46 | four buffers of 8, 8, 4 and 4 bytes per particle for the maximum count, an empty render list and the given system |
| DrawableParticleSystem.GetParticleCount | liquidview/src/main/java/com/google/fpl/liquidfunpaint/DrawableParticleSystem.java:48-50 | the wrapped system's particle count |
| DrawableParticleSystem.OnDrawFrame | liquidview/src/main/java/com/google/fpl/liquidfunpaint/DrawableParticleSystem.java:52-71 | the render list is cleared, the four buffers rewound with their limits kept, and their first count slots become exactly the particles' positions, velocities, colours and weights, the rest kept |
| DrawableParticleSystem.RenderWaterParticles | liquidview/src/main/java/com/google/fpl/liquidfunpaint/DrawableParticleSystem.java:73-108 | draws exactly the groups flagged particleGroupCanBeEmpty, in order, and appends exactly the others to the render list, which is not cleared first |
| DrawableParticleSystem.RenderNonWaterParticles | liquidview/src/main/java/com/google/fpl/liquidfunpaint/DrawableParticleSystem.java:111-133 | draws every render-list group once, in order, over its own particle range |
| DrawableParticleSystem.Frame | liquidview/src/main/java/com/google/fpl/liquidfunpaint/DrawableParticleSystem.java:52-133 | snapshot, water pass and non-water pass in that order draw every group exactly once, water groups first |
| DrawableParticleSystem.Reset | liquidview/src/main/java/com/google/fpl/liquidfunpaint/DrawableParticleSystem.java:148-153 | the four buffers get position 0 and limit at capacity; contents and everything else are kept |
| DrawableParticleSystem.ResetTwice | liquidview/src/main/java/com/google/fpl/liquidfunpaint/DrawableParticleSystem.java:148-153 | resetting twice is resetting once |
| RenderThread.InitialState | liquidview/src/main/java/com/mycardboarddreams/liquidsurface/LiquidRenderThread.java:40-43 | the listener starts not running, paused and without a thread |
| RenderThread.JavaIntCast | liquidview/src/main/java/com/mycardboarddreams/liquidsurface/LiquidRenderThread.java:64 | Java's `(int)` cast truncates toward zero inside the int range and gives Integer.MAX_VALUE at or above it and Integer.MIN_VALUE at or below it |
| RenderThread.FrameDuration | liquidview/src/main/java/com/mycardboarddreams/liquidsurface/LiquidRenderThread.java:64 | the frame budget is the whole number of milliseconds in 1000/fps, rounded down; a zero rate gives Integer.MAX_VALUE |
| RenderThread.SetDimensions | liquidview/src/main/java/com/mycardboarddreams/liquidsurface/LiquidRenderThread.java:159-162 | stores exactly the given size and nothing else |
| RenderThread.SetPaused | liquidview/src/main/java/com/mycardboarddreams/liquidsurface/LiquidRenderThread.java:76-79 | sets exactly the paused flag |
| RenderThread.StartThread | liquidview/src/main/java/com/mycardboarddreams/liquidsurface/LiquidRenderThread.java:59-68 | afterwards there is a thread; it is unpaused, has the given size and the frame budget for the target rate; `running` is not raised here |
| RenderThread.BeginRun | liquidview/src/main/java/com/mycardboarddreams/liquidsurface/LiquidRenderThread.java:108-113 | the thread passes the stored size on to the physics loop, then raises `running` |
| RenderThread.StopThread | liquidview/src/main/java/com/mycardboarddreams/liquidsurface/LiquidRenderThread.java:91-104 | without a thread nothing changes; otherwise `running` is lowered and the thread dropped |
| RenderThread.StopThreadTwice | liquidview/src/main/java/com/mycardboarddreams/liquidsurface/LiquidRenderThread.java:91-104 | stopping twice is stopping once |
| RenderThread.SizeChanged | liquidview/src/main/java/com/mycardboarddreams/liquidsurface/LiquidRenderThread.java:71-74 | stores the new size and passes that same size on to the physics loop; the running and paused flags, the thread and the frame budget are kept |
| RenderThread.Iterate | liquidview/src/main/java/com/mycardboarddreams/liquidsurface/LiquidRenderThread.java:115-135 | draws if and only if the first read saw it unpaused; sleeps 100 ms if the second read saw it paused, otherwise max(10, budget − elapsed); when paused before the sleep the last frame time is the draw start if it drew and unchanged if not |
| RenderThread.RunningFramePeriod | liquidview/src/main/java/com/mycardboarddreams/liquidsurface/LiquidRenderThread.java:116-131 | an unpaused iteration draws, and draw time plus sleep is at least the frame budget (exactly the budget when drawing took at most budget − 10 ms); the stale last-frame time plays no part |
| RenderThread.PausedIteration | liquidview/src/main/java/com/mycardboarddreams/liquidsurface/LiquidRenderThread.java:116-125 | a paused iteration draws nothing, sleeps 100 ms and keeps the last frame time |
| RenderThread.SleepIsPositive | liquidview/src/main/java/com/mycardboarddreams/liquidsurface/LiquidRenderThread.java:123-131 | whatever setPaused does concurrently, the sleep is at least 10 ms, so `Thread.sleep` never throws for a negative argument |

## Behaviour worth knowing

- **Two locks.** `WorldLock` and `LiquidWorld` each own a `ReentrantLock` over their own `World` reference, and the model gives each its own `Lock`. Within `LiquidWorld`, the world and the particle systems share one lock (`LiquidWorld.OneLock`).
- **Reentrant locking.** Nested acquisition by the owner succeeds. `resetWorld` relies on this: it calls `deleteWorld` while holding the lock (`Locks.WrapScoped`).
- **A null world raises an exception.** Stepping, setting gravity and rebuilding the boundary dereference the world without a null check. With no world each raises a `NullPointerException`, and the lock is still released by `finally`.
- **Draining runs until the queue is empty.** `runPendingRunnables` polls until the queue is empty, so it also runs commands queued while the drain is in progress. The model has no concurrent producers, so in it draining runs exactly the pending queue.

## Left out

- Everything on the GPU side is left out, being external to the logic modelled here:
  - EGL and GLES setup, shaders and materials;
  - the framebuffers, blur and screen renderers, and buffer swaps;
  - the 4×4 matrices built with `Matrix.frustumM`, `setLookAtM`, `multiplyMM` and `perspectiveM`.
  - Only the scale and translation that map world coordinates to clip space are modelled.
- WorldLock `getScreenTransform`, `getParticleTransform`, `createWorldTransform`, `createScreenRender` and the perspective transforms: only the x/y scales they derive are modelled (`WorldLock.Derive`), not the matrix entries.
- Thread scheduling: `Thread.start`, `join`, `sleep` and the interleaving of two threads are not modelled.
  - Locking is modelled from one owner's point of view, as a hold count and an event log.
  - Concurrent `setPaused` calls appear as the two values of `paused` an iteration reads.
  - Clock readings (`System.currentTimeMillis`) are parameters.
- A physics command stands for an arbitrary `Runnable`; the model has three kinds: create a body with fixtures, destroy a body, set the gravity. Other world edits are not modelled.
  - Against a null world the model's physics commands do nothing; a real `Runnable` that dereferences the world would throw.
- Commands are not modelled as throwing or as enqueuing further commands.
  - In `stepWorld` a throwing command would escape before the `try`, leaving the lock held.
  - A command enqueued during a drain would run in the same drain.
- Classes outside this model are left out because they are not part of it. Where their effect matters it is an assumption:
  - `ParticleSystems` is a map from key to system: `clear` empties it; `resetToDefaultParticleSystem` leaves one empty default system; `reset` in `resetWorld` is left out.
  - `SolidWorld.createSolidObject` adds one solid body with one polygon fixture.
  - With a null world, `SolidWorld.createSolidObject` throws.
  - `ScreenRenderer.draw(mTransformFromTexture)` scales the offscreen image's clip coordinates by the texture scale. The corner mappings of `ParticleRenderer.OnSurfaceChanged`, `OrientationFits`, `LandscapeFits` and `PortraitFits` hold for the world transform followed by that scale.
  - `Tool.getTool(WATER).getParticleGroupFlags()` is a parameter `waterFlags`.
  - The `PhysicsLoop` calls appear only as the log of sizes passed on.
- `ParticleSystems.MAX_PARTICLE_COUNT` and `WorldLock.MAX_PARTICLE_COUNT` are constructor parameters; their values come from classes that are not part of this model.
- Float arithmetic is modelled as real arithmetic: rounding, `Infinity` and `NaN` are not represented.
- `long` overflow in the frame clock is not modelled.
- `showFrameRate`, logging, `finalize`, `delete()` of native objects, `onSurfaceCreated` and its JSON material loading, and `setDebugDraw` are left out, since none affects state the core keeps.
- LiquidWorld.RenderDimensions: requires positive width and height; for a zero side the source divides by zero and gets `Infinity` or `NaN`, which real arithmetic cannot express.
- LiquidWorld.InitializeWorldDimensions: requires positive width and height, for the same reason.
- ParticleRenderer.OnSurfaceChanged: requires positive width and height (the ratio `height / width` is undefined otherwise).
- WorldLock.SetWorldDimensions: takes positive dimensions only, for the same reason.
- WorldLock.ScreenWorldFor: takes positive dimensions only, for the same reason.
- ParticleRenderer.OnDrawFrame: requires the live particle count to be at most the buffer capacity. The native copy past the end of a direct buffer, which the source does not guard, is not modelled.
- DrawableParticleSystem.OnDrawFrame: requires the live particle count to be at most the buffer capacity, for the same reason.
- DrawableParticleSystem.Frame: requires the live particle count to be at most the buffer capacity, for the same reason.
- LiquidWorld.InitBoundaries: one state change in the model; the contract fixes the exact lock() and unlock() events logged, but not where that change falls between them.
- LiquidWorld.DeleteWorld: one state change in the model; the contract fixes the exact lock() and unlock() events logged, but not where that change falls between them.
- LiquidWorld.CreatePhysicsObject: one state change in the model; the contract fixes the exact lock() and unlock() events logged, but not where that change falls between them.
- WorldLock.SetGravity: one state change in the model; the contract fixes the exact lock() and unlock() events logged, but not where that change falls between them.
- WorldLock.DeleteWorld: one state change in the model; the contract fixes the exact lock() and unlock() events logged, but not where that change falls between them.
- Engine.Step: the particle and body dynamics are not modelled, only that a step with the given arguments happened, at which hold count, and on which gravity and bodies.
- RenderThread.FrameDuration: float rounding of `1f / fps * 1000` is not modelled; the result is exact real division truncated.

=== FILE: buffers.dfy ===
/** A direct java.nio.ByteBuffer holding one particle attribute. Its byte
    capacity is `stride` bytes per particle times the maximum particle count;
    its memory is viewed as one slot per particle. The native engine's
    `copy*Buffer(start, n, buffer)` writes from the start of the buffer's
    memory and does not move its position. */
module Buffers {

  datatype Buffer<T> = Buffer(capacity: nat, position: nat, limit: nat, slots: seq<T>)

  predicate Valid<T>(b: Buffer<T>)
  {
    b.position <= b.limit <= b.capacity
  }

  /** ByteBuffer.allocateDirect(stride * maxParticles): zero-filled memory,
      position 0, limit at capacity. */
  function Allocate<T>(stride: nat, maxParticles: nat, zero: T): (b: Buffer<T>)
    ensures Valid(b)
    ensures b.capacity == stride * maxParticles && |b.slots| == maxParticles
    ensures b.position == 0 && b.limit == b.capacity
    ensures forall i | 0 <= i < |b.slots| :: b.slots[i] == zero
  {
    Buffer(stride * maxParticles, 0, stride * maxParticles, seq(maxParticles, _ => zero))
  }

  /** Buffer.rewind: position back to 0, limit and contents kept. */
  function Rewind<T>(b: Buffer<T>): (r: Buffer<T>)
    ensures Valid(b) ==> Valid(r)
    ensures r.position == 0
    ensures r.limit == b.limit && r.capacity == b.capacity && r.slots == b.slots
  {
    b.(position := 0)
  }

  /** Buffer.clear: position 0 and limit at capacity; the contents are not
      erased. */
  function Clear<T>(b: Buffer<T>): (r: Buffer<T>)
    ensures Valid(r)
    ensures r.position == 0 && r.limit == r.capacity
    ensures r.capacity == b.capacity && r.slots == b.slots
  {
    b.(position := 0, limit := b.capacity)
  }

  /** The native copy of particles [0, n) of `source` into the buffer. */
  function CopyPrefix<T>(b: Buffer<T>, source: seq<T>, n: nat): (r: Buffer<T>)
    requires n <= |b.slots| && n <= |source|
    ensures |r.slots| == |b.slots|
    ensures r.slots[..n] == source[..n]
    ensures r.slots[n..] == b.slots[n..]
    ensures r.capacity == b.capacity && r.position == b.position && r.limit == b.limit
  {
    b.(slots := source[..n] + b.slots[n..])
  }

  /** Clearing is idempotent. */
  lemma ClearTwice<T>(b: Buffer<T>)
    ensures Clear(Clear(b)) == Clear(b)
  {
  }
}

=== FILE: drawable_particle_system.dfy ===
/** DrawableParticleSystem: one particle system together with its own four
    attribute buffers and render list. It takes no lock itself; its caller
    is expected to hold the world's lock. The water groups are those whose
    flags are exactly LiquidFun's particleGroupCanBeEmpty. */
module DrawableParticleSystem {
  import opened Engine
  import opened Buffers
  import opened Groups

  /** ParticleGroupFlag.particleGroupCanBeEmpty: 1 << 2. */
  const PARTICLE_GROUP_CAN_BE_EMPTY: int := 4

  /** Bytes per particle: two floats of position or velocity, four bytes of
      colour, one float of weight. */
  const VECTOR_STRIDE: nat := 8
  const COLOR_STRIDE: nat := 4
  const WEIGHT_STRIDE: nat := 4

  datatype Drawable = Drawable(
    system: ParticleSystem,
    maxParticles: nat,
    positions: Buffer<Vec2>,
    velocities: Buffer<Vec2>,
    colors: Buffer<Color>,
    weights: Buffer<real>,
    renderList: seq<Group>)

  /** The buffers have the sizes the constructor gave them. */
  predicate Valid(d: Drawable)
  {
    Buffers.Valid(d.positions) && Buffers.Valid(d.velocities) && Buffers.Valid(d.colors) && Buffers.Valid(d.weights) &&
    d.positions.capacity == VECTOR_STRIDE * d.maxParticles && |d.positions.slots| == d.maxParticles &&
    d.velocities.capacity == VECTOR_STRIDE * d.maxParticles && |d.velocities.slots| == d.maxParticles &&
    d.colors.capacity == COLOR_STRIDE * d.maxParticles && |d.colors.slots| == d.maxParticles &&
    d.weights.capacity == WEIGHT_STRIDE * d.maxParticles && |d.weights.slots| == d.maxParticles
  }

  /** The constructor: wraps the system and allocates four zero-filled
      direct buffers for `maxParticles` particles. */
  function New(system: ParticleSystem, maxParticles: nat): (d: Drawable)
    ensures Valid(d) && d.system == system && d.maxParticles == maxParticles && d.renderList == []
    ensures d.positions.capacity == 8 * maxParticles && d.velocities.capacity == 8 * maxParticles
    ensures d.colors.capacity == 4 * maxParticles && d.weights.capacity == 4 * maxParticles
  {
    Drawable(system, maxParticles,
      Allocate(VECTOR_STRIDE, maxParticles, Vec2(0.0, 0.0)),
      Allocate(VECTOR_STRIDE, maxParticles, Vec2(0.0, 0.0)),
      Allocate(COLOR_STRIDE, maxParticles, Color(0, 0, 0, 0)),
      Allocate(WEIGHT_STRIDE, maxParticles, 0.0),
      [])
  }

  /** getParticleCount: the wrapped system's count. */
  function GetParticleCount(d: Drawable): (n: nat)
    ensures n == |d.system.particles|
  {
    ParticleCount(d.system)
  }

  /** onDrawFrame: clear the render list, rewind the four buffers and copy
      the first getParticleCount() particles into each. */
  function OnDrawFrame(d: Drawable): (d': Drawable)
    requires Valid(d) && GetParticleCount(d) <= d.maxParticles
    ensures Valid(d') && d'.system == d.system && d'.maxParticles == d.maxParticles
    ensures d'.renderList == []
    ensures d'.positions.position == 0 && d'.velocities.position == 0 && d'.colors.position == 0 && d'.weights.position == 0
    ensures d'.positions.limit == d.positions.limit && d'.velocities.limit == d.velocities.limit &&
      d'.colors.limit == d.colors.limit && d'.weights.limit == d.weights.limit
    ensures var n := GetParticleCount(d);
      d'.positions.slots[..n] == Positions(d.system.particles) && d'.positions.slots[n..] == d.positions.slots[n..] &&
      d'.velocities.slots[..n] == Velocities(d.system.particles) && d'.velocities.slots[n..] == d.velocities.slots[n..] &&
      d'.colors.slots[..n] == Colors(d.system.particles) && d'.colors.slots[n..] == d.colors.slots[n..] &&
      d'.weights.slots[..n] == Weights(d.system.particles) && d'.weights.slots[n..] == d.weights.slots[n..]
  {
    var n := GetParticleCount(d);
    var ps := d.system.particles;
    assert Positions(ps)[..n] == Positions(ps) && Velocities(ps)[..n] == Velocities(ps);
    assert Colors(ps)[..n] == Colors(ps) && Weights(ps)[..n] == Weights(ps);
    d.(renderList := [],
       positions := CopyPrefix(Rewind(d.positions), Positions(ps), n),
       velocities := CopyPrefix(Rewind(d.velocities), Velocities(ps), n),
       colors := CopyPrefix(Rewind(d.colors), Colors(ps), n),
       weights := CopyPrefix(Rewind(d.weights), Weights(ps), n))
  }

  /** renderWaterParticles: draw the groups flagged exactly
      particleGroupCanBeEmpty, in list order, and append every other group to
      the render list, which is NOT cleared first. */
  method RenderWaterParticles(d: Drawable) returns (d': Drawable, draws: seq<DrawCall>)
    ensures d'.renderList == d.renderList + NotMatching(d.system.groups, PARTICLE_GROUP_CAN_BE_EMPTY)
    ensures draws == DrawAll(Matching(d.system.groups, PARTICLE_GROUP_CAN_BE_EMPTY), WaterPass)
    ensures d' == d.(renderList := d'.renderList)
  {
    var list;
    list, draws := DrawWaterParticles(d.system.groups, PARTICLE_GROUP_CAN_BE_EMPTY, d.renderList);
    d' := d.(renderList := list);
  }

  /** renderNonWaterParticles: draw the render list in order; nothing of the
      drawable changes. */
  method RenderNonWaterParticles(d: Drawable) returns (draws: seq<DrawCall>)
    ensures draws == DrawAll(d.renderList, OtherPass)
    ensures |draws| == |d.renderList|
    ensures forall i | 0 <= i < |d.renderList| ::
      draws[i].pass == OtherPass && draws[i].offset == d.renderList[i].bufferIndex &&
      draws[i].offset + draws[i].count == d.renderList[i].bufferIndex + d.renderList[i].count
  {
    draws := DrawNonWaterParticles(d.renderList);
  }

  /** A frame drawn in the intended order (onDrawFrame, then the water pass,
      then the non-water pass) draws every group exactly once, water groups
      first; a water pass without a preceding onDrawFrame would draw the
      leftover groups of the previous frame again. */
  method Frame(d: Drawable) returns (d': Drawable, draws: seq<DrawCall>)
    requires Valid(d) && GetParticleCount(d) <= d.maxParticles
    ensures d'.renderList == NotMatching(d.system.groups, PARTICLE_GROUP_CAN_BE_EMPTY)
    ensures draws == DrawAll(Matching(d.system.groups, PARTICLE_GROUP_CAN_BE_EMPTY), WaterPass) +
                     DrawAll(NotMatching(d.system.groups, PARTICLE_GROUP_CAN_BE_EMPTY), OtherPass)
    ensures |draws| == |d.system.groups|
  {
    var snapshot := OnDrawFrame(d);
    var waterDraws, otherDraws;
    d', waterDraws := RenderWaterParticles(snapshot);
    otherDraws := RenderNonWaterParticles(d');
    assert d'.renderList == NotMatching(d.system.groups, PARTICLE_GROUP_CAN_BE_EMPTY);
    assert otherDraws == DrawAll(d'.renderList, OtherPass);
    draws := waterDraws + otherDraws;
    PartitionIsPermutation(d.system.groups, PARTICLE_GROUP_CAN_BE_EMPTY);
    assert |multiset(Matching(d.system.groups, PARTICLE_GROUP_CAN_BE_EMPTY)) +
            multiset(NotMatching(d.system.groups, PARTICLE_GROUP_CAN_BE_EMPTY))| == |multiset(d.system.groups)|;
  }

  /** reset: clear all four buffers. */
  function Reset(d: Drawable): (d': Drawable)
    ensures d'.positions.position == 0 && d'.positions.limit == d'.positions.capacity
    ensures d'.velocities.position == 0 && d'.velocities.limit == d'.velocities.capacity
    ensures d'.colors.position == 0 && d'.colors.limit == d'.colors.capacity
    ensures d'.weights.position == 0 && d'.weights.limit == d'.weights.capacity
    ensures d' == d.(positions := d'.positions, velocities := d'.velocities, colors := d'.colors, weights := d'.weights)
    ensures d'.positions.slots == d.positions.slots && d'.velocities.slots == d.velocities.slots
    ensures d'.colors.slots == d.colors.slots && d'.weights.slots == d.weights.slots
    ensures Valid(d) ==> Valid(d')
  {
    d.(positions := Clear(d.positions), velocities := Clear(d.velocities), colors := Clear(d.colors), weights := Clear(d.weights))
  }

  /** Resetting twice is resetting once. */
  lemma ResetTwice(d: Drawable)
    ensures Reset(Reset(d)) == Reset(d)
  {
    ClearTwice(d.positions);
    ClearTwice(d.velocities);
    ClearTwice(d.colors);
    ClearTwice(d.weights);
  }
}

=== FILE: engine.dfy ===
/** The native LiquidFun engine, treated as opaque: a world is a gravity
    vector, a table of bodies and the record of every step taken; a particle
    system is its particles and its list of particle groups. Only the effects
    the Java layer relies on are modelled. */
module Engine {

  /** A Java reference that may be null. */
  datatype Option<T> = None | Some(value: T)

  /** How a Java call ended: normally, or with a NullPointerException from
      dereferencing a null engine object (the `finally` blocks still run). */
  datatype Outcome = Completed | NullPointer

  /** Positive reals: screen and world extents. */
  type PosReal = r: real | r > 0.0 witness 1.0

  datatype Vec2 = Vec2(x: real, y: real)

  datatype Color = Color(r: nat, g: nat, b: nat, a: nat)

  /** The per-particle attributes the renderers copy out of the engine. */
  datatype Particle = Particle(position: Vec2, velocity: Vec2, color: Color, weight: real)

  /** A particle group: its flags and the contiguous run
      [bufferIndex, bufferIndex + count) of the system's buffers it owns. */
  datatype Group = Group(flags: int, bufferIndex: nat, count: nat)

  /** The native group list (a `getNext()` chain) becomes a sequence. */
  datatype ParticleSystem = ParticleSystem(particles: seq<Particle>, groups: seq<Group>)

  const EmptySystem := ParticleSystem([], [])

  /** ParticleSystem.getParticleCount. */
  function ParticleCount(ps: ParticleSystem): nat
  {
    |ps.particles|
  }

  /** The per-particle attribute arrays that copy*Buffer reads from. */
  function Positions(ps: seq<Particle>): (r: seq<Vec2>)
    ensures |r| == |ps| && forall i | 0 <= i < |ps| :: r[i] == ps[i].position
  {
    seq(|ps|, i requires 0 <= i < |ps| => ps[i].position)
  }

  function Velocities(ps: seq<Particle>): (r: seq<Vec2>)
    ensures |r| == |ps| && forall i | 0 <= i < |ps| :: r[i] == ps[i].velocity
  {
    seq(|ps|, i requires 0 <= i < |ps| => ps[i].velocity)
  }

  function Colors(ps: seq<Particle>): (r: seq<Color>)
    ensures |r| == |ps| && forall i | 0 <= i < |ps| :: r[i] == ps[i].color
  {
    seq(|ps|, i requires 0 <= i < |ps| => ps[i].color)
  }

  function Weights(ps: seq<Particle>): (r: seq<real>)
    ensures |r| == |ps| && forall i | 0 <= i < |ps| :: r[i] == ps[i].weight
  {
    seq(|ps|, i requires 0 <= i < |ps| => ps[i].weight)
  }

  /** The engine keeps every group inside the live particles. */
  predicate GroupsInside(ps: ParticleSystem)
  {
    forall i | 0 <= i < |ps.groups| :: ps.groups[i].bufferIndex + ps.groups[i].count <= |ps.particles|
  }

  /** A fixture's shape: PolygonShape.setAsBox(hx, hy, cx, cy, 0) is a box with
      half-extents (hx, hy) centred at (cx, cy); other polygons are kept as
      their vertex list. */
  datatype Shape =
    | Box(halfWidth: real, halfHeight: real, centerX: real, centerY: real)
    | Polygon(vertices: seq<real>)

  datatype BodyKind = BoundaryBody | SolidBody

  datatype Body = Body(kind: BodyKind, fixtures: seq<Shape>)

  /** The arguments of one World.step call, the hold count of the world's
      lock at the time of the call, and the gravity and bodies the step
      integrated. */
  datatype StepRecord = StepRecord(
    dt: real,
    velocityIterations: int,
    positionIterations: int,
    particleIterations: int,
    lockHolds: nat,
    gravity: Vec2,
    bodies: map<nat, Body>)

  datatype WorldData = WorldData(gravity: Vec2, bodies: map<nat, Body>, nextBodyId: nat, steps: seq<StepRecord>)

  /** Body identifiers are handed out once. */
  predicate WellFormed(w: WorldData)
  {
    forall id | id in w.bodies :: id < w.nextBodyId
  }

  /** A world as the engine keeps it: every body id below the next one. */
  type World = w: WorldData | WellFormed(w) witness WorldData(Vec2(0.0, 0.0), map[], 0, [])

  /** new World(gx, gy). */
  function NewWorld(gx: real, gy: real): (w: World)
    ensures w.bodies == map[] && w.steps == [] && w.gravity == Vec2(gx, gy)
  {
    WorldData(Vec2(gx, gy), map[], 0, [])
  }

  /** World.createBody: a new body without fixtures, under a fresh id. */
  function CreateBody(w: World, kind: BodyKind): (r: (World, nat))
    ensures r.1 !in w.bodies && r.0.bodies == w.bodies[r.1 := Body(kind, [])]
    ensures r.0.gravity == w.gravity && r.0.steps == w.steps
  {
    var id := w.nextBodyId;
    (w.(bodies := w.bodies[id := Body(kind, [])], nextBodyId := id + 1), id)
  }

  /** World.destroyBody. */
  function DestroyBody(w: World, id: nat): (r: World)
    ensures r.bodies == w.bodies - {id}
    ensures r.nextBodyId == w.nextBodyId && r.gravity == w.gravity && r.steps == w.steps
  {
    w.(bodies := w.bodies - {id})
  }

  /** Body.createFixture on the body with the given id. */
  function CreateFixture(w: World, id: nat, s: Shape): (r: World)
    requires id in w.bodies
    ensures r.bodies == w.bodies[id := Body(w.bodies[id].kind, w.bodies[id].fixtures + [s])]
    ensures r.nextBodyId == w.nextBodyId && r.gravity == w.gravity && r.steps == w.steps
  {
    var b := w.bodies[id];
    w.(bodies := w.bodies[id := Body(b.kind, b.fixtures + [s])])
  }

  /** Body.createFixture once per shape, in order. */
  function CreateFixtures(w: World, id: nat, shapes: seq<Shape>): (r: World)
    requires id in w.bodies
    ensures r.bodies == w.bodies[id := Body(w.bodies[id].kind, w.bodies[id].fixtures + shapes)]
    ensures r.nextBodyId == w.nextBodyId && r.gravity == w.gravity && r.steps == w.steps
    decreases |shapes|
  {
    if shapes == [] then
      assert w.bodies[id].fixtures + shapes == w.bodies[id].fixtures;
      w
    else
      var init := shapes[..|shapes| - 1];
      var before := CreateFixtures(w, id, init);
      assert w.bodies[id].fixtures + init + [shapes[|shapes| - 1]] == w.bodies[id].fixtures + shapes;
      CreateFixture(before, id, shapes[|shapes| - 1])
  }

  /** World.step; the dynamics are not modelled, only that the step happened
      and which world state it integrated. */
  function Step(w: World, dt: real, velocityIterations: int, positionIterations: int,
                particleIterations: int, lockHolds: nat): (r: World)
    ensures r.bodies == w.bodies && r.nextBodyId == w.nextBodyId && r.gravity == w.gravity
    ensures |r.steps| == |w.steps| + 1 && r.steps[..|w.steps|] == w.steps
    ensures r.steps[|w.steps|] ==
      StepRecord(dt, velocityIterations, positionIterations, particleIterations, lockHolds, w.gravity, w.bodies)
  {
    var record := StepRecord(dt, velocityIterations, positionIterations, particleIterations, lockHolds, w.gravity, w.bodies);
    w.(steps := w.steps + [record])
  }

  /** World.setGravity. */
  function SetGravity(w: World, gx: real, gy: real): (r: World)
    ensures r.gravity == Vec2(gx, gy)
    ensures r.bodies == w.bodies && r.nextBodyId == w.nextBodyId && r.steps == w.steps
  {
    w.(gravity := Vec2(gx, gy))
  }
}

=== FILE: groups.dfy ===
/** The two-pass drawing of particle groups shared by ParticleRenderer and
    DrawableParticleSystem: the first pass walks the group list once, draws
    the groups whose flags equal the water flags and defers every other group
    to a render list; the second pass draws the render list. Draw calls
    (GLES20.glDrawArrays over GL_POINTS) are recorded as a log. */
module Groups {
  import opened Engine

  datatype Pass = WaterPass | OtherPass

  /** glDrawArrays(GL_POINTS, offset, count) issued during `pass`. */
  datatype DrawCall = DrawCall(pass: Pass, offset: nat, count: nat)

  /** drawParticleGroup: a draw over [bufferIndex, bufferIndex + count). */
  function DrawGroup(g: Group, pass: Pass): (d: DrawCall)
    ensures d.offset == g.bufferIndex && d.offset + d.count == g.bufferIndex + g.count
    ensures d.pass == pass
  {
    DrawCall(pass, g.bufferIndex, g.count)
  }

  /** The draws of a sequence of groups, one per group, in order. */
  function DrawAll(gs: seq<Group>, pass: Pass): (ds: seq<DrawCall>)
    ensures |ds| == |gs|
    ensures forall i | 0 <= i < |gs| :: ds[i] == DrawGroup(gs[i], pass)
  {
    seq(|gs|, i requires 0 <= i < |gs| => DrawGroup(gs[i], pass))
  }

  /** Reference definition: the groups whose flags equal `flags`, in order. */
  function Matching(gs: seq<Group>, flags: int): seq<Group>
  {
    if gs == [] then []
    else Matching(gs[..|gs| - 1], flags) + (if gs[|gs| - 1].flags == flags then [gs[|gs| - 1]] else [])
  }

  /** Reference definition: the groups whose flags differ from `flags`, in
      order. */
  function NotMatching(gs: seq<Group>, flags: int): seq<Group>
  {
    if gs == [] then []
    else NotMatching(gs[..|gs| - 1], flags) + (if gs[|gs| - 1].flags != flags then [gs[|gs| - 1]] else [])
  }

  function SumCounts(gs: seq<Group>): nat
  {
    if gs == [] then 0 else SumCounts(gs[..|gs| - 1]) + gs[|gs| - 1].count
  }

  /** The water pass: walks the group list once; a group whose flags equal
      `waterFlags` is drawn, any other group is appended to the render list,
      which is not cleared here. */
  method DrawWaterParticles(groups: seq<Group>, waterFlags: int, renderList: seq<Group>)
    returns (list: seq<Group>, draws: seq<DrawCall>)
    ensures list == renderList + NotMatching(groups, waterFlags)
    ensures draws == DrawAll(Matching(groups, waterFlags), WaterPass)
  {
    list := renderList;
    draws := [];
    var i := 0;
    while i < |groups|
      invariant 0 <= i <= |groups|
      invariant list == renderList + NotMatching(groups[..i], waterFlags)
      invariant draws == DrawAll(Matching(groups[..i], waterFlags), WaterPass)
    {
      var g := groups[i];
      assert groups[..i + 1][..i] == groups[..i];
      if g.flags == waterFlags {
        draws := draws + [DrawGroup(g, WaterPass)];
      } else {
        list := list + [g];
      }
      i := i + 1;
    }
    assert groups[..|groups|] == groups;
  }

  /** The second pass: draws every group of the render list, in order, and
      leaves the list as it is. */
  method DrawNonWaterParticles(renderList: seq<Group>) returns (draws: seq<DrawCall>)
    ensures draws == DrawAll(renderList, OtherPass)
    ensures |draws| == |renderList|
    ensures forall i | 0 <= i < |renderList| ::
      draws[i].pass == OtherPass && draws[i].offset == renderList[i].bufferIndex && draws[i].count == renderList[i].count
  {
    draws := [];
    var i := 0;
    while i < |renderList|
      invariant 0 <= i <= |renderList|
      invariant draws == DrawAll(renderList[..i], OtherPass)
    {
      assert renderList[..i + 1] == renderList[..i] + [renderList[i]];
      draws := draws + [DrawGroup(renderList[i], OtherPass)];
      i := i + 1;
    }
    assert renderList[..|renderList|] == renderList;
  }

  /** The two passes split the group list: every group goes to exactly one of
      them, as many times as it occurs in the list. */
  lemma {:induction false} PartitionIsPermutation(gs: seq<Group>, flags: int)
    ensures multiset(Matching(gs, flags)) + multiset(NotMatching(gs, flags)) == multiset(gs)
  {
    if gs != [] {
      var init := gs[..|gs| - 1];
      var last := gs[|gs| - 1];
      PartitionIsPermutation(init, flags);
      assert gs == init + [last];
      if last.flags == flags {
        assert Matching(gs, flags) == Matching(init, flags) + [last];
        assert NotMatching(gs, flags) == NotMatching(init, flags);
      } else {
        assert Matching(gs, flags) == Matching(init, flags);
        assert NotMatching(gs, flags) == NotMatching(init, flags) + [last];
      }
      OneMoreSplit(Matching(init, flags), NotMatching(init, flags), Matching(gs, flags), NotMatching(gs, flags), init, last);
    }
  }

  /** Sending one more group to either side keeps a split a split. */
  lemma OneMoreSplit(a: seq<Group>, b: seq<Group>, a': seq<Group>, b': seq<Group>, init: seq<Group>, last: Group)
    requires multiset(a) + multiset(b) == multiset(init)
    requires (a' == a + [last] && b' == b) || (a' == a && b' == b + [last])
    ensures multiset(a') + multiset(b') == multiset(init + [last])
  {
    assert multiset(init + [last]) == multiset(init) + multiset{last};
  }

  /** The first pass draws only water groups and the second only others. */
  lemma {:induction false} PartitionBySide(gs: seq<Group>, flags: int)
    ensures forall i | 0 <= i < |Matching(gs, flags)| :: Matching(gs, flags)[i].flags == flags
    ensures forall i | 0 <= i < |NotMatching(gs, flags)| :: NotMatching(gs, flags)[i].flags != flags
  {
    if gs != [] {
      PartitionBySide(gs[..|gs| - 1], flags);
    }
  }

  /** Between them the two passes draw as many particles as the groups hold. */
  lemma {:induction false} PartitionKeepsParticleTotal(gs: seq<Group>, flags: int)
    ensures SumCounts(Matching(gs, flags)) + SumCounts(NotMatching(gs, flags)) == SumCounts(gs)
  {
    if gs != [] {
      var init := gs[..|gs| - 1];
      var last := gs[|gs| - 1];
      PartitionKeepsParticleTotal(init, flags);
      SumCountsAppend(Matching(init, flags), if last.flags == flags then [last] else []);
      SumCountsAppend(NotMatching(init, flags), if last.flags != flags then [last] else []);
    }
  }

  lemma {:induction false} SumCountsAppend(a: seq<Group>, b: seq<Group>)
    ensures SumCounts(a + b) == SumCounts(a) + SumCounts(b)
    decreases |b|
  {
    if b == [] {
      assert a + b == a;
    } else {
      assert (a + b)[..|a + b| - 1] == a + b[..|b| - 1];
      SumCountsAppend(a, b[..|b| - 1]);
    }
  }

  /** Every group reaches one of the passes: membership in either list is
      membership in the group list. */
  lemma PartitionMembership(gs: seq<Group>, flags: int, g: Group)
    ensures g in gs <==> (g in Matching(gs, flags) || g in NotMatching(gs, flags))
  {
    PartitionIsPermutation(gs, flags);
    assert g in multiset(gs) <==> g in gs;
    assert g in multiset(Matching(gs, flags)) <==> g in Matching(gs, flags);
    assert g in multiset(NotMatching(gs, flags)) <==> g in NotMatching(gs, flags);
  }

  /** When every group lies inside the live particles, every draw of either
      pass reads only particles [0, n) that were just copied. */
  lemma DrawsInsideSnapshot(ps: ParticleSystem, flags: int)
    requires GroupsInside(ps)
    ensures forall d | d in DrawAll(Matching(ps.groups, flags), WaterPass) + DrawAll(NotMatching(ps.groups, flags), OtherPass) ::
      d.offset + d.count <= ParticleCount(ps)
  {
    forall d | d in DrawAll(Matching(ps.groups, flags), WaterPass) + DrawAll(NotMatching(ps.groups, flags), OtherPass)
      ensures d.offset + d.count <= ParticleCount(ps)
    {
      var g: Group;
      if d in DrawAll(Matching(ps.groups, flags), WaterPass) {
        var i :| 0 <= i < |Matching(ps.groups, flags)| && d == DrawGroup(Matching(ps.groups, flags)[i], WaterPass);
        g := Matching(ps.groups, flags)[i];
        assert g in Matching(ps.groups, flags);
      } else {
        var i :| 0 <= i < |NotMatching(ps.groups, flags)| && d == DrawGroup(NotMatching(ps.groups, flags)[i], OtherPass);
        g := NotMatching(ps.groups, flags)[i];
        assert g in NotMatching(ps.groups, flags);
      }
      PartitionMembership(ps.groups, flags, g);
      var j :| 0 <= j < |ps.groups| && ps.groups[j] == g;
    }
  }
}

=== FILE: liquid_world.dfy ===
/** LiquidWorld: the singleton that owns the physics world, its boundary
    body and the particle-system registry, all guarded by one reentrant lock.
    Every public operation takes the lock, works, and releases it in a
    `finally` block; a null world makes the engine call throw a
    NullPointerException after which the lock is still released. */
module LiquidWorld {
  import opened Engine
  import opened Locks

  /** The shorter side of the render world, in world units. */
  const WORLD_SPAN: real := 3.0

  const VELOCITY_ITERATIONS: int := 6
  const POSITION_ITERATIONS: int := 2
  const PARTICLE_ITERATIONS: int := 5

  /** Half the thickness of each boundary wall. */
  const BOUNDARY_THICKNESS: real := 20.0

  /** The registry key of the default particle system
      (ParticleSystems.DEFAULT_PARTICLE_SYSTEM; its text is not part of this
      model, only that it is one fixed key). */
  const DEFAULT_PARTICLE_SYSTEM: string := "default"

  /** The singleton's fields, with the ParticleSystems registry folded in as
      a map from key to system. */
  datatype State = State(
    world: Option<World>,
    lock: Lock,
    renderWidth: PosReal,
    renderHeight: PosReal,
    boundary: Option<nat>,
    systems: map<string, ParticleSystem>)

  /** The instance as constructed: no world, a square 3 x 3 render world. */
  const Initial := State(None, Unlocked, WORLD_SPAN, WORLD_SPAN, None, map[])

  /** hasWorld. */
  predicate HasWorld(s: State)
  {
    s.world.Some?
  }

  /** The ids of the boundary bodies of a world. */
  function BoundaryIds(w: World): set<nat>
  {
    set id | id in w.bodies && w.bodies[id].kind == BoundaryBody
  }

  /** The singleton's invariant: a boundary body exists only inside a world,
      and inside a world it is the only boundary body. */
  predicate Invariant(s: State)
  {
    (s.world.None? ==> s.boundary.None?) &&
    (s.world.Some? ==> BoundaryIds(s.world.value) == (if s.boundary.Some? then {s.boundary.value} else {}))
  }

  lemma InitialInvariant()
    ensures Invariant(Initial) && !HasWorld(Initial) && Initial.lock.holds == 0
  {
  }

  /** The render-world size for a screen of width x height pixels: the
      shorter screen axis gets WORLD_SPAN and the other one scales with the
      screen's aspect ratio. */
  function RenderDimensions(width: int, height: int): (d: (PosReal, PosReal))
    requires width > 0 && height > 0
    ensures height < width ==> d.1 == WORLD_SPAN
    ensures height >= width ==> d.0 == WORLD_SPAN
    ensures d.0 * height as real == d.1 * width as real
  {
    var w := width as real;
    var h := height as real;
    if height < width then
      var rw: PosReal := w * WORLD_SPAN / h;
      (rw, WORLD_SPAN)
    else
      var rh: PosReal := h * WORLD_SPAN / w;
      (WORLD_SPAN, rh)
  }

  /** Both render sides are at least WORLD_SPAN and the shorter one is
      exactly WORLD_SPAN, on the same axis as the shorter screen side. */
  lemma RenderDimensionsShorterSide(width: int, height: int)
    requires width > 0 && height > 0
    ensures RenderDimensions(width, height).0 >= WORLD_SPAN && RenderDimensions(width, height).1 >= WORLD_SPAN
    ensures height < width ==> RenderDimensions(width, height).0 > WORLD_SPAN
    ensures width < height ==> RenderDimensions(width, height).1 > WORLD_SPAN
  {
    var (rw, rh) := RenderDimensions(width, height);
    var w := width as real;
    var h := height as real;
    if height < width {
      assert rw * h == WORLD_SPAN * w;
      SpanMonotone(rw, h, w);
    } else {
      assert rh * w == WORLD_SPAN * h;
      SpanMonotone(rh, w, h);
    }
  }

  /** If side * a == WORLD_SPAN * b with 0 < a <= b then side >= WORLD_SPAN,
      strictly when a < b. */
  lemma SpanMonotone(side: real, a: real, b: real)
    requires 0.0 < a <= b && side * a == WORLD_SPAN * b
    ensures side >= WORLD_SPAN
    ensures a < b ==> side > WORLD_SPAN
  {
    var d := side - WORLD_SPAN;
    assert d * a == WORLD_SPAN * (b - a);
    assert d == WORLD_SPAN * (b - a) / a;
  }

  /** The four boundary walls around a W x H canvas, as setAsBox(half-width,
      half-height, centre x, centre y): top, bottom, left, right. */
  function Walls(W: real, H: real): (r: seq<Shape>)
    ensures |r| == 4 && forall i | 0 <= i < |r| :: r[i].Box?
    ensures r[0].halfHeight == r[1].halfHeight == r[2].halfWidth == r[3].halfWidth == BOUNDARY_THICKNESS
  {
    var t := BOUNDARY_THICKNESS;
    [ Box(W, t, W / 2.0, H + t),
      Box(W, t, W / 2.0, -t),
      Box(t, H, -t, H / 2.0),
      Box(t, H, W + t, H / 2.0) ]
  }

  function MinX(b: Shape): real requires b.Box? { b.centerX - b.halfWidth }
  function MaxX(b: Shape): real requires b.Box? { b.centerX + b.halfWidth }
  function MinY(b: Shape): real requires b.Box? { b.centerY - b.halfHeight }
  function MaxY(b: Shape): real requires b.Box? { b.centerY + b.halfHeight }

  /** A box shares no interior point with the canvas [0, W] x [0, H]. */
  predicate OutsideCanvas(b: Shape, W: real, H: real)
    requires b.Box?
  {
    MaxX(b) <= 0.0 || MinX(b) >= W || MaxY(b) <= 0.0 || MinY(b) >= H
  }

  /** Each wall lies on its edge of the canvas, is 2T thick, covers that whole
      edge, and does not overlap the canvas interior. */
  lemma WallsEncloseCanvas(W: PosReal, H: PosReal)
    ensures |Walls(W, H)| == 4 && forall i | 0 <= i < 4 :: Walls(W, H)[i].Box?
    ensures forall i | 0 <= i < 4 :: OutsideCanvas(Walls(W, H)[i], W, H)
    ensures var top := Walls(W, H)[0];
      MinY(top) == H && MaxY(top) == H + 2.0 * BOUNDARY_THICKNESS && MinX(top) <= 0.0 && MaxX(top) >= W
    ensures var bottom := Walls(W, H)[1];
      MinY(bottom) == -2.0 * BOUNDARY_THICKNESS && MaxY(bottom) == 0.0 && MinX(bottom) <= 0.0 && MaxX(bottom) >= W
    ensures var left := Walls(W, H)[2];
      MinX(left) == -2.0 * BOUNDARY_THICKNESS && MaxX(left) == 0.0 && MinY(left) <= 0.0 && MaxY(left) >= H
    ensures var right := Walls(W, H)[3];
      MinX(right) == W && MaxX(right) == W + 2.0 * BOUNDARY_THICKNESS && MinY(right) <= 0.0 && MaxY(right) >= H
  {
  }

  /** A body table without the given boundary body, if any. */
  function Unbound(bodies: map<nat, Body>, boundary: Option<nat>): map<nat, Body>
  {
    if boundary.Some? then bodies - {boundary.value} else bodies
  }

  /** initBoundaries: under the lock, destroy the old boundary body if there
      is one, then create a boundary body carrying the four walls for the
      current render size. Without a world the first engine call throws. */
  function InitBoundaries(s: State): (r: (State, Outcome))
    ensures Scoped(s.lock, r.0.lock)
    ensures r.0.lock.log == s.lock.log + [Acquire, Release]
    ensures r.1 == NullPointer <==> !HasWorld(s)
    ensures !HasWorld(s) ==> r.0 == s.(lock := r.0.lock)
    ensures HasWorld(s) ==>
      r.0.world.Some? && r.0.boundary.Some? && r.0.boundary.value !in s.world.value.bodies &&
      r.0.world.value.bodies ==
        Unbound(s.world.value.bodies, s.boundary)[r.0.boundary.value := Body(BoundaryBody, Walls(s.renderWidth, s.renderHeight))]
    ensures HasWorld(s) ==>
      r.0.world.value.steps == s.world.value.steps && r.0.world.value.gravity == s.world.value.gravity
    ensures r.0.renderWidth == s.renderWidth && r.0.renderHeight == s.renderHeight && r.0.systems == s.systems
    ensures Invariant(s) ==> Invariant(r.0)
  {
    var held := s.(lock := AcquireLock(s.lock));
    LockUnlock(s.lock);
    if s.world.None? then
      (held.(lock := ReleaseLock(held.lock)), NullPointer)
    else
      var w0 := s.world.value;
      var w1 := if s.boundary.Some? then DestroyBody(w0, s.boundary.value) else w0;
      var (w2, id) := CreateBody(w1, BoundaryBody);
      var walls := Walls(s.renderWidth, s.renderHeight);
      var w3 := CreateFixtures(w2, id, walls);
      assert w1.bodies == Unbound(w0.bodies, s.boundary);
      assert [] + walls == walls;
      var r := held.(world := Some(w3), boundary := Some(id), lock := ReleaseLock(held.lock));
      BoundaryAfterRebuild(s, w3, id);
      (r, Completed)
  }

  /** After the old boundary body is destroyed and a new one created, the
      new one is the only boundary body. */
  lemma BoundaryAfterRebuild(s: State, w3: World, id: nat)
    requires s.world.Some?
    requires w3.bodies == Unbound(s.world.value.bodies, s.boundary)[id := Body(BoundaryBody, Walls(s.renderWidth, s.renderHeight))]
    ensures Invariant(s) ==> BoundaryIds(w3) == {id}
  {
    assert forall k | k in w3.bodies && k != id :: k in s.world.value.bodies && w3.bodies[k] == s.world.value.bodies[k];
  }

  /** initializeWorldDimensions: set the render size for the screen and
      rebuild the boundary walls. */
  function InitializeWorldDimensions(s: State, width: int, height: int): (r: (State, Outcome))
    requires width > 0 && height > 0
    ensures (r.0.renderWidth, r.0.renderHeight) == RenderDimensions(width, height)
    ensures r.0.renderWidth * height as real == r.0.renderHeight * width as real
    ensures Scoped(s.lock, r.0.lock)
    ensures r.0.lock.log == s.lock.log + [Acquire, Release]
    ensures r.1 == NullPointer <==> !HasWorld(s)
    ensures !HasWorld(s) ==> r.0 == s.(renderWidth := r.0.renderWidth, renderHeight := r.0.renderHeight, lock := r.0.lock)
    ensures HasWorld(s) ==>
      (r.0.world.Some? && r.0.boundary.Some? && r.0.boundary.value !in s.world.value.bodies &&
       r.0.world.value.bodies ==
         Unbound(s.world.value.bodies, s.boundary)[r.0.boundary.value := Body(BoundaryBody, Walls(r.0.renderWidth, r.0.renderHeight))])
    ensures HasWorld(s) ==>
      r.0.world.value.steps == s.world.value.steps && r.0.world.value.gravity == s.world.value.gravity
    ensures r.0.systems == s.systems
    ensures Invariant(s) ==> Invariant(r.0)
  {
    var d := RenderDimensions(width, height);
    var sized := s.(renderWidth := d.0, renderHeight := d.1);
    assert Invariant(sized) == Invariant(s) && HasWorld(sized) == HasWorld(s);
    var r := InitBoundaries(sized);
    assert r.0.renderWidth == d.0 && r.0.renderHeight == d.1;
    r
  }

  /** deleteWorld: under the lock, drop the boundary body, and if there is a
      world, delete it and clear the particle-system registry. */
  function DeleteWorld(s: State): (r: State)
    ensures !HasWorld(r) && r.boundary.None?
    ensures r.systems == if HasWorld(s) then map[] else s.systems
    ensures Scoped(s.lock, r.lock)
    ensures r.lock.log == s.lock.log + [Acquire, Release]
    ensures r.renderWidth == s.renderWidth && r.renderHeight == s.renderHeight
    ensures Invariant(r)
  {
    var held := s.(lock := AcquireLock(s.lock));
    LockUnlock(s.lock);
    var dropped := held.(boundary := None);
    var cleared := if s.world.Some? then dropped.(world := None, systems := map[]) else dropped;
    cleared.(lock := ReleaseLock(held.lock))
  }

  /** A second deleteWorld changes nothing but the lock's history. */
  lemma DeleteWorldTwice(s: State)
    ensures DeleteWorld(DeleteWorld(s)) == DeleteWorld(s).(lock := DeleteWorld(DeleteWorld(s)).lock)
  {
  }

  /** The registry after resetToDefaultParticleSystem: only the default
      system, holding no particles. */
  function DefaultSystems(): (m: map<string, ParticleSystem>)
    ensures m.Keys == {DEFAULT_PARTICLE_SYSTEM} && m[DEFAULT_PARTICLE_SYSTEM] == EmptySystem
  {
    map[DEFAULT_PARTICLE_SYSTEM := EmptySystem]
  }

  /** createNewWorld: delete the old world, create a gravity-free one (this
      assignment is outside the lock), build its boundary and reset the
      registry to the default particle system. */
  function CreateNewWorld(s: State): (r: State)
    ensures HasWorld(r) && r.boundary.Some?
    ensures r.world.value.bodies == map[r.boundary.value := Body(BoundaryBody, Walls(s.renderWidth, s.renderHeight))]
    ensures r.world.value.gravity == Vec2(0.0, 0.0) && r.world.value.steps == []
    ensures r.systems == DefaultSystems()
    ensures r.renderWidth == s.renderWidth && r.renderHeight == s.renderHeight
    ensures Restored(s.lock, r.lock)
    ensures r.lock.log == s.lock.log + [Acquire, Release, Acquire, Release]
    ensures Invariant(r)
  {
    var deleted := DeleteWorld(s);
    var created := deleted.(world := Some(NewWorld(0.0, 0.0)));
    var (built, _) := InitBoundaries(created);
    ScopedIsRestored(s.lock, deleted.lock);
    ScopedIsRestored(deleted.lock, built.lock);
    Chain(s.lock, deleted.lock, built.lock);
    TwoSections(s.lock.log, deleted.lock.log, built.lock.log);
    built.(systems := DefaultSystems())
  }

  /** Two lock/unlock pairs in a row. */
  lemma TwoSections(t0: seq<Event>, t1: seq<Event>, t2: seq<Event>)
    requires t1 == t0 + [Acquire, Release] && t2 == t1 + [Acquire, Release]
    ensures t2 == t0 + [Acquire, Release, Acquire, Release]
  {
  }

  /** acquireWorld: take the lock and hand out the (possibly null) world. */
  function AcquireWorld(s: State): (r: (State, Option<World>))
    ensures r.0 == s.(lock := AcquireLock(s.lock)) && r.1 == s.world
  {
    (s.(lock := AcquireLock(s.lock)), s.world)
  }

  /** acquireParticleSystem(key): take the lock and look the key up. */
  function AcquireParticleSystem(s: State, key: string): (r: (State, Option<ParticleSystem>))
    ensures r.0 == s.(lock := AcquireLock(s.lock))
    ensures r.1.Some? <==> key in s.systems
    ensures r.1.Some? ==> r.1.value == s.systems[key]
  {
    (s.(lock := AcquireLock(s.lock)), if key in s.systems then Some(s.systems[key]) else None)
  }

  /** acquireParticleSystem(): the default system. */
  function AcquireDefaultParticleSystem(s: State): (r: (State, Option<ParticleSystem>))
    ensures r.0 == s.(lock := AcquireLock(s.lock))
    ensures r.1.Some? <==> DEFAULT_PARTICLE_SYSTEM in s.systems
    ensures r.1.Some? ==> r.1.value == s.systems[DEFAULT_PARTICLE_SYSTEM]
  {
    AcquireParticleSystem(s, DEFAULT_PARTICLE_SYSTEM)
  }

  /** releaseWorld. */
  function ReleaseWorld(s: State): (r: State)
    requires s.lock.holds > 0
    ensures r == s.(lock := ReleaseLock(s.lock))
  {
    s.(lock := ReleaseLock(s.lock))
  }

  /** releaseParticleSystem. */
  function ReleaseParticleSystem(s: State): (r: State)
    requires s.lock.holds > 0
    ensures r == s.(lock := ReleaseLock(s.lock))
  {
    s.(lock := ReleaseLock(s.lock))
  }

  /** The world and both particle-system accessors take one and the same
      lock, so holding any of them excludes the others; the two releases are
      interchangeable, and any acquire/release pair is one critical section. */
  lemma OneLock(s: State, key: string)
    ensures AcquireWorld(s).0 == AcquireParticleSystem(s, key).0 == AcquireDefaultParticleSystem(s).0
    ensures AcquireWorld(s).0.lock.holds == s.lock.holds + 1
    ensures ReleaseWorld(AcquireWorld(s).0) == ReleaseParticleSystem(AcquireParticleSystem(s, key).0)
    ensures Scoped(s.lock, ReleaseParticleSystem(AcquireWorld(s).0).lock)
    ensures ReleaseWorld(AcquireParticleSystem(s, key).0) == s.(lock := ReleaseWorld(AcquireParticleSystem(s, key).0).lock)
  {
    LockUnlock(s.lock);
  }

  /** stepWorld: one engine step under the lock with the fixed iteration
      counts. */
  function StepWorld(s: State, dt: real): (r: (State, Outcome))
    ensures Scoped(s.lock, r.0.lock)
    ensures r.0.lock.log == s.lock.log + [Acquire, Release]
    ensures r.1 == NullPointer <==> !HasWorld(s)
    ensures HasWorld(s) ==>
      (r.0.world.Some? &&
       r.0.world.value.bodies == s.world.value.bodies &&
       r.0.world.value.steps == s.world.value.steps +
         [StepRecord(dt, VELOCITY_ITERATIONS, POSITION_ITERATIONS, PARTICLE_ITERATIONS, s.lock.holds + 1,
                     s.world.value.gravity, s.world.value.bodies)])
    ensures HasWorld(s) ==>
      r.0.world.value == Step(s.world.value, dt, VELOCITY_ITERATIONS, POSITION_ITERATIONS, PARTICLE_ITERATIONS, s.lock.holds + 1)
    ensures !HasWorld(s) ==> r.0.world == s.world
    ensures r.0 == s.(world := r.0.world, lock := r.0.lock)
  {
    var (held, world) := AcquireWorld(s);
    LockUnlock(s.lock);
    if world.None? then
      (ReleaseWorld(held), NullPointer)
    else
      var w := Step(world.value, dt, VELOCITY_ITERATIONS, POSITION_ITERATIONS, PARTICLE_ITERATIONS, held.lock.holds);
      assert w.steps == world.value.steps + [w.steps[|world.value.steps|]];
      (ReleaseWorld(held.(world := Some(w))), Completed)
  }

  /** createPhysicsObject: under the lock, hand the world and the vertex
      list to SolidWorld, which adds one solid body with that polygon.
      SolidWorld is not part of this model; with a null world its engine
      call is taken to throw. */
  function CreatePhysicsObject(s: State, vertices: seq<real>): (r: (State, Outcome, Option<nat>))
    ensures Scoped(s.lock, r.0.lock)
    ensures r.0.lock.log == s.lock.log + [Acquire, Release]
    ensures r.1 == NullPointer <==> !HasWorld(s)
    ensures r.2.Some? <==> HasWorld(s)
    ensures HasWorld(s) ==>
      (r.0.world.Some? && r.2.value !in s.world.value.bodies &&
       r.0.world.value.bodies == s.world.value.bodies[r.2.value := Body(SolidBody, [Polygon(vertices)])])
    ensures HasWorld(s) ==> r.0.world.value.gravity == s.world.value.gravity && r.0.world.value.steps == s.world.value.steps
    ensures r.0 == s.(world := r.0.world, lock := r.0.lock)
    ensures Invariant(s) ==> Invariant(r.0)
  {
    var (held, world) := AcquireWorld(s);
    LockUnlock(s.lock);
    if world.None? then
      (ReleaseWorld(held), NullPointer, None)
    else
      var (w1, id) := CreateBody(world.value, SolidBody);
      var w2 := CreateFixture(w1, id, Polygon(vertices));
      assert [] + [Polygon(vertices)] == [Polygon(vertices)];
      assert BoundaryIds(w2) == BoundaryIds(world.value);
      (ReleaseWorld(held.(world := Some(w2))), Completed, Some(id))
  }

  /** Every operation keeps the singleton's invariant, and after any of them
      the world has at most one boundary body. */
  lemma InvariantPreserved(s: State, width: int, height: int, dt: real, vertices: seq<real>)
    requires Invariant(s)
    ensures Invariant(InitBoundaries(s).0)
    ensures width > 0 && height > 0 ==> Invariant(InitializeWorldDimensions(s, width, height).0)
    ensures Invariant(DeleteWorld(s)) && Invariant(CreateNewWorld(s))
    ensures Invariant(StepWorld(s, dt).0)
    ensures Invariant(CreatePhysicsObject(s, vertices).0)
    ensures HasWorld(s) ==> |BoundaryIds(s.world.value)| <= 1
  {
    var st := StepWorld(s, dt).0;
    if HasWorld(s) {
      assert st.world.value.bodies == s.world.value.bodies;
      assert BoundaryIds(st.world.value) == BoundaryIds(s.world.value);
    }
  }
}

=== FILE: locks.dfy ===
/** A java.util.concurrent.locks.ReentrantLock seen by one logical owner.
    The lock is a hold count together with the log of every lock() and
    unlock() call made on it, so that an operation's use of the lock can be
    judged from the events it added: balanced, properly nested, and held
    without a gap from its first lock() to its last unlock(). */
module Locks {

  datatype Event = Acquire | Release

  datatype Lock = Lock(holds: nat, log: seq<Event>)

  /** The lock as constructed: not held, never used. */
  const Unlocked := Lock(0, [])

  /** Number of acquisitions not yet matched by a release. */
  function Depth(t: seq<Event>): int
  {
    if t == [] then 0
    else Depth(t[..|t| - 1]) + (if t[|t| - 1] == Acquire then 1 else -1)
  }

  /** Every release matches an earlier acquire and none is left open. */
  predicate Balanced(t: seq<Event>)
  {
    Depth(t) == 0 && forall i | 0 <= i <= |t| :: Depth(t[..i]) >= 0
  }

  /** One critical section: the first event takes the lock, the last one
      releases it, and it is held at every point in between. */
  predicate CriticalSection(t: seq<Event>)
  {
    |t| >= 2 && Depth(t) == 0 && forall i | 0 < i < |t| :: Depth(t[..i]) > 0
  }

  /** The hold count agrees with the events logged so far. */
  predicate Consistent(l: Lock)
  {
    l.holds == Depth(l.log)
  }

  /** lock(): always succeeds for the owner, even when it already holds it. */
  function AcquireLock(l: Lock): (r: Lock)
    ensures r.holds == l.holds + 1
    ensures Consistent(l) ==> Consistent(r)
  {
    var r := Lock(l.holds + 1, l.log + [Acquire]);
    assert r.log[..|r.log| - 1] == l.log;
    r
  }

  /** unlock(): a ReentrantLock throws IllegalMonitorStateException when the
      caller does not hold it, so callers must hold it. */
  function ReleaseLock(l: Lock): (r: Lock)
    requires l.holds > 0
    ensures r.holds + 1 == l.holds
    ensures Consistent(l) ==> Consistent(r)
  {
    var r := Lock(l.holds - 1, l.log + [Release]);
    assert r.log[..|r.log| - 1] == l.log;
    r
  }

  /** l1 was obtained from l0 by further lock operations. */
  predicate Extends(l0: Lock, l1: Lock)
  {
    |l0.log| <= |l1.log| && l1.log[..|l0.log|] == l0.log
  }

  /** The events performed between l0 and l1. */
  function Since(l0: Lock, l1: Lock): seq<Event>
    requires Extends(l0, l1)
  {
    l1.log[|l0.log|..]
  }

  /** An operation that went from l0 to l1 used the lock as one critical
      section and left the hold count where it found it. */
  predicate Scoped(l0: Lock, l1: Lock)
  {
    Extends(l0, l1) && l1.holds == l0.holds && CriticalSection(Since(l0, l1))
  }

  /** An operation that went from l0 to l1 made only balanced use of the lock
      (possibly several separate critical sections, possibly none). */
  predicate Restored(l0: Lock, l1: Lock)
  {
    Extends(l0, l1) && l1.holds == l0.holds && Balanced(Since(l0, l1))
  }

  lemma {:induction false} DepthAppend(a: seq<Event>, b: seq<Event>)
    ensures Depth(a + b) == Depth(a) + Depth(b)
    decreases |b|
  {
    if b == [] {
      assert a + b == a;
    } else {
      var b' := b[..|b| - 1];
      assert (a + b)[..|a + b| - 1] == a + b';
      assert b[..|b| - 1] == b';
      DepthAppend(a, b');
    }
  }

  lemma CriticalSectionIsBalanced(t: seq<Event>)
    requires CriticalSection(t)
    ensures Balanced(t)
  {
    assert t[..|t|] == t;
  }

  lemma {:induction false} BalancedConcat(a: seq<Event>, b: seq<Event>)
    requires Balanced(a) && Balanced(b)
    ensures Balanced(a + b)
  {
    DepthAppend(a, b);
    forall i | 0 <= i <= |a + b|
      ensures Depth((a + b)[..i]) >= 0
    {
      if i <= |a| {
        assert (a + b)[..i] == a[..i];
      } else {
        assert (a + b)[..i] == a + b[..i - |a|];
        assert a[..|a|] == a;
        DepthAppend(a, b[..i - |a|]);
      }
    }
  }

  /** Taking the lock around a balanced body yields one critical section. */
  lemma {:induction false} WrapIsCriticalSection(body: seq<Event>)
    requires Balanced(body)
    ensures CriticalSection([Acquire] + body + [Release])
  {
    var t := [Acquire] + body + [Release];
    DepthAppend([Acquire] + body, [Release]);
    DepthAppend([Acquire], body);
    assert Depth([Acquire]) == 1 by {
      assert [Acquire][..0] == [];
    }
    assert Depth([Release]) == -1 by {
      assert [Release][..0] == [];
    }
    forall i | 0 < i < |t|
      ensures Depth(t[..i]) > 0
    {
      assert t[..i] == [Acquire] + body[..i - 1];
      DepthAppend([Acquire], body[..i - 1]);
    }
  }

  lemma ExtendsTransitive(l0: Lock, l1: Lock, l2: Lock)
    requires Extends(l0, l1) && Extends(l1, l2)
    ensures Extends(l0, l2)
    ensures Since(l0, l2) == Since(l0, l1) + Since(l1, l2)
  {
    assert l2.log[..|l0.log|] == l2.log[..|l1.log|][..|l0.log|];
    assert l2.log[|l0.log|..] == l2.log[|l0.log|..|l1.log|] + l2.log[|l1.log|..];
    assert l2.log[|l0.log|..|l1.log|] == l1.log[|l0.log|..];
  }

  /** An operation that takes the lock, runs a body that restores it, and
      releases it again, is scoped. */
  lemma Wrap(l0: Lock, l1: Lock)
    requires Restored(AcquireLock(l0), l1)
    ensures l1.holds > 0
    ensures Scoped(l0, ReleaseLock(l1))
  {
    var a := AcquireLock(l0);
    var l2 := ReleaseLock(l1);
    assert Extends(l0, a) && Since(l0, a) == [Acquire];
    assert Extends(l1, l2) && Since(l1, l2) == [Release];
    ExtendsTransitive(l0, a, l1);
    ExtendsTransitive(l0, l1, l2);
    WrapIsCriticalSection(Since(a, l1));
  }

  /** Two restoring operations in sequence restore the lock. */
  lemma Chain(l0: Lock, l1: Lock, l2: Lock)
    requires Restored(l0, l1) && Restored(l1, l2)
    ensures Restored(l0, l2)
  {
    ExtendsTransitive(l0, l1, l2);
    BalancedConcat(Since(l0, l1), Since(l1, l2));
  }

  lemma ScopedIsRestored(l0: Lock, l1: Lock)
    requires Scoped(l0, l1)
    ensures Restored(l0, l1)
  {
    CriticalSectionIsBalanced(Since(l0, l1));
  }

  lemma NothingIsRestored(l: Lock)
    ensures Restored(l, l)
  {
    assert Since(l, l) == [];
  }

  /** The source's pattern `lock(); try { … } finally { unlock(); }` with a
      body that does not touch the lock is one critical section. */
  lemma {:induction false} LockUnlock(l: Lock)
    ensures Scoped(l, ReleaseLock(AcquireLock(l)))
  {
    NothingIsRestored(AcquireLock(l));
    Wrap(l, AcquireLock(l));
  }

  /** A scoped operation nested inside another critical section. */
  lemma {:induction false} WrapScoped(l0: Lock, l1: Lock)
    requires Scoped(AcquireLock(l0), l1)
    ensures l1.holds > 0
    ensures Scoped(l0, ReleaseLock(l1))
  {
    ScopedIsRestored(AcquireLock(l0), l1);
    Wrap(l0, l1);
  }

  /** Two scoped operations nested, one after the other, inside another
      critical section. */
  lemma {:induction false} WrapTwoScoped(l0: Lock, l1: Lock, l2: Lock)
    requires Scoped(AcquireLock(l0), l1) && Scoped(l1, l2)
    ensures l2.holds > 0
    ensures Scoped(l0, ReleaseLock(l2))
  {
    ScopedIsRestored(AcquireLock(l0), l1);
    ScopedIsRestored(l1, l2);
    Chain(AcquireLock(l0), l1, l2);
    Wrap(l0, l2);
  }

  /** The hold count inside a critical section never drops to zero: no other
      thread can take the lock part-way through. */
  lemma HeldThroughout(l0: Lock, l1: Lock, k: nat)
    requires Consistent(l0) && Scoped(l0, l1)
    requires 0 < k < |Since(l0, l1)|
    ensures Depth(l1.log[..|l0.log| + k]) > l0.holds
  {
    var t := Since(l0, l1);
    assert l1.log[..|l0.log| + k] == l0.log + t[..k];
    DepthAppend(l0.log, t[..k]);
  }
}

=== FILE: particle_renderer.dfy ===
/** ParticleRenderer: each frame it snapshots the default particle system
    into three attribute buffers and draws the particle groups in two passes,
    water first; on a surface change it sets the world-to-screen transform
    for the screen's orientation. GL state, materials, render surfaces and
    the blur/screen renderers are outside the model; only the draw calls are
    recorded. */
module ParticleRenderer {
  import opened Engine
  import opened Locks
  import opened Buffers
  import opened Groups
  import LiquidWorld

  /** Bytes per particle in each buffer: two floats of position, four bytes
      of colour, one float of weight. */
  const POSITION_STRIDE: nat := 8
  const COLOR_STRIDE: nat := 4
  const WEIGHT_STRIDE: nat := 4

  /** The part of a 4x4 transform that scaleM/translateM on the identity can
      produce in the x-y plane: p maps to (sx * p.x + tx, sy * p.y + ty). */
  datatype Affine = Affine(sx: real, sy: real, tx: real, ty: real)

  function Apply(a: Affine, p: Vec2): Vec2
  {
    Vec2(a.sx * p.x + a.tx, a.sy * p.y + a.ty)
  }

  datatype Renderer = Renderer(
    maxParticles: nat,
    positions: Buffer<Vec2>,
    colors: Buffer<Color>,
    weights: Buffer<real>,
    renderList: seq<Group>,
    textureScale: Vec2,
    fromWorld: Affine)

  /** The buffers have the sizes the constructor gave them. */
  predicate Valid(r: Renderer)
  {
    Buffers.Valid(r.positions) && Buffers.Valid(r.colors) && Buffers.Valid(r.weights) &&
    r.positions.capacity == POSITION_STRIDE * r.maxParticles && |r.positions.slots| == r.maxParticles &&
    r.colors.capacity == COLOR_STRIDE * r.maxParticles && |r.colors.slots| == r.maxParticles &&
    r.weights.capacity == WEIGHT_STRIDE * r.maxParticles && |r.weights.slots| == r.maxParticles
  }

  /** The constructor: three zero-filled direct buffers sized for
      `maxParticles` particles, an empty render list and the all-zero
      matrices a fresh float[16] holds. */
  function New(maxParticles: nat): (r: Renderer)
    ensures Valid(r) && r.maxParticles == maxParticles
    ensures r.positions.capacity == 8 * maxParticles
    ensures r.colors.capacity == 4 * maxParticles && r.weights.capacity == 4 * maxParticles
    ensures r.positions.position == 0 && r.positions.limit == r.positions.capacity
    ensures r.colors.position == 0 && r.colors.limit == r.colors.capacity
    ensures r.weights.position == 0 && r.weights.limit == r.weights.capacity
    ensures r.renderList == []
  {
    Renderer(maxParticles,
      Allocate(POSITION_STRIDE, maxParticles, Vec2(0.0, 0.0)),
      Allocate(COLOR_STRIDE, maxParticles, Color(0, 0, 0, 0)),
      Allocate(WEIGHT_STRIDE, maxParticles, 0.0),
      [], Vec2(0.0, 0.0), Affine(0.0, 0.0, 0.0, 0.0))
  }

  /** A snapshot of n particles fits in all three buffers exactly when n is
      at most the maximum particle count. */
  lemma SnapshotFits(r: Renderer, n: nat)
    requires Valid(r)
    ensures n <= r.maxParticles <==>
      (POSITION_STRIDE * n <= r.positions.capacity && COLOR_STRIDE * n <= r.colors.capacity &&
       WEIGHT_STRIDE * n <= r.weights.capacity)
  {
  }

  /** The per-frame reset: three rewinds and an empty render list. */
  function Rewound(r: Renderer): (r': Renderer)
    ensures r'.positions.position == 0 && r'.colors.position == 0 && r'.weights.position == 0
    ensures r'.renderList == []
    ensures r'.positions.slots == r.positions.slots && r'.colors.slots == r.colors.slots && r'.weights.slots == r.weights.slots
    ensures r'.positions.limit == r.positions.limit && r'.colors.limit == r.colors.limit && r'.weights.limit == r.weights.limit
    ensures r'.positions.capacity == r.positions.capacity && r'.colors.capacity == r.colors.capacity &&
      r'.weights.capacity == r.weights.capacity
    ensures r' == r.(positions := r'.positions, colors := r'.colors, weights := r'.weights, renderList := [])
    ensures Valid(r) ==> Valid(r')
  {
    r.(positions := Rewind(r.positions), colors := Rewind(r.colors), weights := Rewind(r.weights), renderList := [])
  }

  /** The parts of a frame that read the particle system. */
  datatype Phase = CopyBuffers | WaterWalk | OtherWalk

  /** The copy of the system's getParticleCount() particles into the first
      slots of the three buffers; the rest of each buffer is left as it was. */
  function Snapshot(r: Renderer, ps: ParticleSystem): (c: Renderer)
    requires Valid(r) && ParticleCount(ps) <= r.maxParticles
    ensures Valid(c) && c == r.(positions := c.positions, colors := c.colors, weights := c.weights)
    ensures c.positions.position == r.positions.position && c.colors.position == r.colors.position &&
      c.weights.position == r.weights.position
    ensures c.positions.limit == r.positions.limit && c.colors.limit == r.colors.limit && c.weights.limit == r.weights.limit
    ensures
      var n := ParticleCount(ps);
      c.positions.slots[..n] == Positions(ps.particles) && c.positions.slots[n..] == r.positions.slots[n..] &&
      c.colors.slots[..n] == Colors(ps.particles) && c.colors.slots[n..] == r.colors.slots[n..] &&
      c.weights.slots[..n] == Weights(ps.particles) && c.weights.slots[n..] == r.weights.slots[n..]
  {
    var n := ParticleCount(ps);
    assert Positions(ps.particles)[..n] == Positions(ps.particles);
    assert Colors(ps.particles)[..n] == Colors(ps.particles);
    assert Weights(ps.particles)[..n] == Weights(ps.particles);
    r.(positions := CopyPrefix(r.positions, Positions(ps.particles), n),
       colors := CopyPrefix(r.colors, Colors(ps.particles), n),
       weights := CopyPrefix(r.weights, Weights(ps.particles), n))
  }

  /** drawWaterParticles then drawNonWaterParticles, called with the lock
      held: each takes the lock again around its walk over the groups, so the
      two passes add two separate critical sections. */
  method DrawPasses(held: LiquidWorld.State, waterFlags: int, renderList: seq<Group>)
    returns (after: LiquidWorld.State, list: seq<Group>, draws: seq<DrawCall>, trace: seq<(Phase, nat)>)
    requires LiquidWorld.DEFAULT_PARTICLE_SYSTEM in held.systems
    ensures after == held.(lock := after.lock) && Restored(held.lock, after.lock)
    ensures after.lock.log == held.lock.log + [Acquire, Release, Acquire, Release]
    ensures trace == [(WaterWalk, held.lock.holds + 1), (OtherWalk, held.lock.holds + 1)]
    ensures
      var groups := held.systems[LiquidWorld.DEFAULT_PARTICLE_SYSTEM].groups;
      list == renderList + NotMatching(groups, waterFlags) &&
      draws == DrawAll(Matching(groups, waterFlags), WaterPass) + DrawAll(list, OtherPass)
  {
    // drawWaterParticles: the lock is taken again around the group walk.
    var waterAcquired := LiquidWorld.AcquireDefaultParticleSystem(held);
    var waterDraws;
    list, waterDraws := DrawWaterParticles(waterAcquired.1.value.groups, waterFlags, renderList);
    var afterWater := LiquidWorld.ReleaseParticleSystem(waterAcquired.0);
    LockUnlock(held.lock);
    ScopedIsRestored(held.lock, afterWater.lock);

    // drawNonWaterParticles: and again around the render-list walk.
    var otherAcquired := LiquidWorld.AcquireDefaultParticleSystem(afterWater);
    var otherDraws := DrawNonWaterParticles(list);
    after := LiquidWorld.ReleaseParticleSystem(otherAcquired.0);
    LockUnlock(afterWater.lock);
    ScopedIsRestored(afterWater.lock, after.lock);
    Chain(held.lock, afterWater.lock, after.lock);

    trace := [(WaterWalk, waterAcquired.0.lock.holds), (OtherWalk, otherAcquired.0.lock.holds)];
    draws := waterDraws + otherDraws;
  }

  /** onDrawFrame: rewind the buffers and clear the render list, then under
      the lock copy the default system's first getParticleCount() particles
      into the buffers and draw the two passes, each of which takes the lock
      again. The trace lists each part that reads the particle system with the
      lock's hold count while it ran. Without a default system the first
      engine call throws and only the outer release runs. */
  method OnDrawFrame(r: Renderer, s: LiquidWorld.State, waterFlags: int)
    returns (r': Renderer, s': LiquidWorld.State, draws: seq<DrawCall>, outcome: Outcome, trace: seq<(Phase, nat)>)
    requires Valid(r)
    requires LiquidWorld.DEFAULT_PARTICLE_SYSTEM in s.systems ==>
      ParticleCount(s.systems[LiquidWorld.DEFAULT_PARTICLE_SYSTEM]) <= r.maxParticles
    ensures Valid(r') && r'.maxParticles == r.maxParticles
    ensures r'.textureScale == r.textureScale && r'.fromWorld == r.fromWorld
    ensures Scoped(s.lock, s'.lock) && s' == s.(lock := s'.lock)
    ensures r'.positions.position == 0 && r'.colors.position == 0 && r'.weights.position == 0
    ensures r'.positions.limit == r.positions.limit && r'.colors.limit == r.colors.limit && r'.weights.limit == r.weights.limit
    ensures outcome == NullPointer <==> LiquidWorld.DEFAULT_PARTICLE_SYSTEM !in s.systems
    ensures outcome == NullPointer ==> draws == [] && r' == Rewound(r) && trace == []
    ensures outcome == NullPointer ==> s'.lock.log == s.lock.log + [Acquire, Release]
    ensures outcome == Completed ==>
      s'.lock.log == s.lock.log + [Acquire, Acquire, Release, Acquire, Release, Release]
    ensures outcome == Completed ==>
      trace == [(CopyBuffers, s.lock.holds + 1), (WaterWalk, s.lock.holds + 2), (OtherWalk, s.lock.holds + 2)]
    ensures outcome == Completed ==>
      var ps := s.systems[LiquidWorld.DEFAULT_PARTICLE_SYSTEM];
      var n := ParticleCount(ps);
      r'.positions.slots[..n] == Positions(ps.particles) && r'.positions.slots[n..] == r.positions.slots[n..] &&
      r'.colors.slots[..n] == Colors(ps.particles) && r'.colors.slots[n..] == r.colors.slots[n..] &&
      r'.weights.slots[..n] == Weights(ps.particles) && r'.weights.slots[n..] == r.weights.slots[n..] &&
      r'.renderList == NotMatching(ps.groups, waterFlags) &&
      draws == DrawAll(Matching(ps.groups, waterFlags), WaterPass) + DrawAll(NotMatching(ps.groups, waterFlags), OtherPass)
  {
    var cleared := Rewound(r);
    var acquired := LiquidWorld.AcquireDefaultParticleSystem(s);
    var held := acquired.0;
    if acquired.1.None? {
      s' := LiquidWorld.ReleaseParticleSystem(held);
      LockUnlock(s.lock);
      r', draws, outcome, trace := cleared, [], NullPointer, [];
      return;
    }
    var copied := Snapshot(cleared, acquired.1.value);
    var after, list, passDraws, passTrace := DrawPasses(held, waterFlags, copied.renderList);
    s' := LiquidWorld.ReleaseParticleSystem(after);
    Wrap(s.lock, after.lock);
    r' := copied.(renderList := list);
    draws := passDraws;
    trace := [(CopyBuffers, held.lock.holds)] + passTrace;
    outcome := Completed;
  }

  /** Over one frame every group of the default system is drawn exactly
      once: the water groups in the first pass, then all others in the second,
      each pass in list order. */
  lemma FrameDrawsEveryGroupOnce(gs: seq<Group>, waterFlags: int)
    ensures multiset(Matching(gs, waterFlags) + NotMatching(gs, waterFlags)) == multiset(gs)
    ensures |DrawAll(Matching(gs, waterFlags), WaterPass) + DrawAll(NotMatching(gs, waterFlags), OtherPass)| == |gs|
    ensures forall g | g in gs :: g in Matching(gs, waterFlags) <==> g.flags == waterFlags
  {
    PartitionIsPermutation(gs, waterFlags);
    PartitionBySide(gs, waterFlags);
    assert |multiset(Matching(gs, waterFlags) + NotMatching(gs, waterFlags))| == |multiset(gs)|;
    forall g | g in gs
      ensures g in Matching(gs, waterFlags) <==> g.flags == waterFlags
    {
      PartitionMembership(gs, waterFlags, g);
    }
  }

  /** With the texture scale applied after the world transform: the point
      the screen renderer ends up showing for world point p. */
  function ToScreen(r: Renderer, p: Vec2): Vec2
  {
    var q := Apply(r.fromWorld, p);
    Vec2(r.textureScale.x * q.x, r.textureScale.y * q.y)
  }

  /** resizeTransformLandscape: texture scaled by (1, 1/ratio); world
      translated by (-1, -ratio) then scaled by (2 / W, 2 ratio / H). */
  function Landscape(ratio: PosReal, W: PosReal, H: PosReal): (t: (Vec2, Affine))
    ensures t.1.tx == -1.0 && t.1.sx * W == 2.0 && t.0.x == 1.0
  {
    (Vec2(1.0, 1.0 / ratio), Affine(2.0 / W, 2.0 * ratio / H, -1.0, -(ratio as real)))
  }

  /** resizeTransformPortrait: texture scaled by (ratio, 1); world translated
      by (-1/ratio, -1) then scaled by (2 / ratio / W, 2 / H). */
  function Portrait(ratio: PosReal, W: PosReal, H: PosReal): (t: (Vec2, Affine))
    ensures t.1.ty == -1.0 && t.1.sy * H == 2.0 && t.0.y == 1.0
  {
    (Vec2(ratio, 1.0), Affine(2.0 / ratio / W, 2.0 / H, -1.0 / ratio, -1.0))
  }

  /** The render world has the screen's aspect ratio. */
  predicate SameAspect(W: PosReal, H: PosReal, width: int, height: int)
  {
    W * height as real == H * width as real
  }

  /** onSurfaceChanged: the portrait branch is taken exactly when the screen
      is taller than wide. Given LiquidWorld's render size for the same
      screen, neither branch stretches the world (equal x and y scale) and the
      canvas [0, W] x [0, H] lands exactly on the screen square [-1, 1]^2. */
  function OnSurfaceChanged(r: Renderer, world: LiquidWorld.State, width: int, height: int): (r': Renderer)
    requires width > 0 && height > 0
    ensures r' == r.(textureScale := r'.textureScale, fromWorld := r'.fromWorld)
    ensures height > width ==> r'.textureScale == Vec2(height as real / width as real, 1.0)
    ensures height <= width ==> r'.textureScale == Vec2(1.0, width as real / height as real)
    ensures SameAspect(world.renderWidth, world.renderHeight, width, height) ==>
      r'.fromWorld.sx == r'.fromWorld.sy &&
      ToScreen(r', Vec2(0.0, 0.0)) == Vec2(-1.0, -1.0) &&
      ToScreen(r', Vec2(world.renderWidth, world.renderHeight)) == Vec2(1.0, 1.0)
  {
    var ratio: PosReal := height as real / width as real;
    var W := world.renderWidth;
    var H := world.renderHeight;
    var t := if height > width then Portrait(ratio, W, H) else Landscape(ratio, W, H);
    var r' := r.(textureScale := t.0, fromWorld := t.1);
    InverseRatio(width, height);
    OrientationFits(ratio, W, H, width, height);
    r'
  }

  lemma OrientationFits(ratio: PosReal, W: PosReal, H: PosReal, width: int, height: int)
    requires width > 0 && height > 0 && ratio == height as real / width as real
    ensures SameAspect(W, H, width, height) ==>
      var t := if height > width then Portrait(ratio, W, H) else Landscape(ratio, W, H);
      t.1.sx == t.1.sy &&
      Vec2(t.0.x * Apply(t.1, Vec2(0.0, 0.0)).x, t.0.y * Apply(t.1, Vec2(0.0, 0.0)).y) == Vec2(-1.0, -1.0) &&
      Vec2(t.0.x * Apply(t.1, Vec2(W, H)).x, t.0.y * Apply(t.1, Vec2(W, H)).y) == Vec2(1.0, 1.0)
  {
    if SameAspect(W, H, width, height) {
      if height > width {
        PortraitFits(ratio, W, H, width, height);
      } else {
        LandscapeFits(ratio, W, H, width, height);
      }
    }
  }

  lemma InverseRatio(width: int, height: int)
    requires width > 0 && height > 0
    ensures 1.0 / (height as real / width as real) == width as real / height as real
  {
  }

  /** The render height is ratio times the render width. */
  lemma AspectHeight(ratio: PosReal, W: PosReal, H: PosReal, width: int, height: int)
    requires width > 0 && height > 0 && ratio == height as real / width as real
    requires SameAspect(W, H, width, height)
    ensures H == ratio * W
  {
    var w := width as real;
    var h := height as real;
    assert W * h == H * w;
    assert ratio * w == h;
    assert ratio * W * w == H * w;
  }

  lemma LandscapeFits(ratio: PosReal, W: PosReal, H: PosReal, width: int, height: int)
    requires width > 0 && height > 0 && ratio == height as real / width as real
    requires SameAspect(W, H, width, height)
    ensures var t := Landscape(ratio, W, H);
      t.1.sx == t.1.sy &&
      Vec2(t.0.x * Apply(t.1, Vec2(0.0, 0.0)).x, t.0.y * Apply(t.1, Vec2(0.0, 0.0)).y) == Vec2(-1.0, -1.0) &&
      Vec2(t.0.x * Apply(t.1, Vec2(W, H)).x, t.0.y * Apply(t.1, Vec2(W, H)).y) == Vec2(1.0, 1.0)
  {
    AspectHeight(ratio, W, H, width, height);
    var t := Landscape(ratio, W, H);
    assert t.1.sy == 2.0 * ratio / (ratio * W);
    assert t.1.sy * H == 2.0 * ratio;
    assert t.0.y * ratio == 1.0;
  }

  lemma PortraitFits(ratio: PosReal, W: PosReal, H: PosReal, width: int, height: int)
    requires width > 0 && height > 0 && ratio == height as real / width as real
    requires SameAspect(W, H, width, height)
    ensures var t := Portrait(ratio, W, H);
      t.1.sx == t.1.sy &&
      Vec2(t.0.x * Apply(t.1, Vec2(0.0, 0.0)).x, t.0.y * Apply(t.1, Vec2(0.0, 0.0)).y) == Vec2(-1.0, -1.0) &&
      Vec2(t.0.x * Apply(t.1, Vec2(W, H)).x, t.0.y * Apply(t.1, Vec2(W, H)).y) == Vec2(1.0, 1.0)
  {
    AspectHeight(ratio, W, H, width, height);
    var t := Portrait(ratio, W, H);
    assert t.1.sy == 2.0 / (ratio * W);
    assert t.1.sx * W == 2.0 / ratio;
    assert ratio * (1.0 / ratio) == 1.0;
  }

  /** With the render size LiquidWorld computes for the same screen, the
      transform never stretches: the common scale is 2 / (3 * the shorter
      screen side) per pixel. */
  lemma NoStretch(r: Renderer, world: LiquidWorld.State, width: int, height: int)
    requires width > 0 && height > 0
    requires (world.renderWidth, world.renderHeight) == LiquidWorld.RenderDimensions(width, height)
    ensures OnSurfaceChanged(r, world, width, height).fromWorld.sx == OnSurfaceChanged(r, world, width, height).fromWorld.sy
    ensures height <= width ==> OnSurfaceChanged(r, world, width, height).fromWorld.sx * 3.0 * width as real == 2.0 * height as real
    ensures height > width ==> OnSurfaceChanged(r, world, width, height).fromWorld.sy * 3.0 * height as real == 2.0 * width as real
  {
    var ratio: PosReal := height as real / width as real;
    var W := world.renderWidth;
    var H := world.renderHeight;
    assert OnSurfaceChanged(r, world, width, height).fromWorld ==
      (if height > width then Portrait(ratio, W, H) else Landscape(ratio, W, H)).1;
    ChosenTransformScale(ratio, W, H, width, height);
  }

  /** The transform onSurfaceChanged picks, for LiquidWorld's render size. */
  lemma ChosenTransformScale(ratio: PosReal, W: PosReal, H: PosReal, width: int, height: int)
    requires width > 0 && height > 0 && ratio == height as real / width as real
    requires W * height as real == H * width as real
    requires height < width ==> H == LiquidWorld.WORLD_SPAN
    requires height >= width ==> W == LiquidWorld.WORLD_SPAN
    ensures var t := (if height > width then Portrait(ratio, W, H) else Landscape(ratio, W, H)).1;
      t.sx == t.sy &&
      (height <= width ==> t.sx * 3.0 * width as real == 2.0 * height as real) &&
      (height > width ==> t.sy * 3.0 * height as real == 2.0 * width as real)
  {
    var w := width as real;
    var h := height as real;
    if height <= width {
      assert W * h == 3.0 * w;
      LandscapeScale(ratio, W, H, width, height);
    } else {
      assert H * w == 3.0 * h;
      PortraitScale(ratio, W, H, width, height);
    }
  }

  /** In landscape, with the height spanning 3 units, one unit is 2/(3 height)
      of the screen per pixel along both axes. */
  lemma LandscapeScale(ratio: PosReal, W: PosReal, H: PosReal, width: int, height: int)
    requires width > 0 && height > 0 && ratio == height as real / width as real
    requires SameAspect(W, H, width, height) && W * height as real == 3.0 * width as real
    ensures Landscape(ratio, W, H).1.sx == Landscape(ratio, W, H).1.sy
    ensures Landscape(ratio, W, H).1.sx * 3.0 * width as real == 2.0 * height as real
  {
    LandscapeFits(ratio, W, H, width, height);
    ScalePerPixel(Landscape(ratio, W, H).1.sx, W, height as real, width as real);
  }

  /** In portrait, with the width spanning 3 units, likewise. */
  lemma PortraitScale(ratio: PosReal, W: PosReal, H: PosReal, width: int, height: int)
    requires width > 0 && height > 0 && ratio == height as real / width as real
    requires SameAspect(W, H, width, height) && H * width as real == 3.0 * height as real
    ensures Portrait(ratio, W, H).1.sx == Portrait(ratio, W, H).1.sy
    ensures Portrait(ratio, W, H).1.sy * 3.0 * height as real == 2.0 * width as real
  {
    PortraitFits(ratio, W, H, width, height);
    ScalePerPixel(Portrait(ratio, W, H).1.sy, H, width as real, height as real);
  }

  lemma ScalePerPixel(scale: real, side: real, a: real, b: real)
    requires scale * side == 2.0 && side * a == 3.0 * b
    ensures scale * 3.0 * b == 2.0 * a
  {
    assert scale * (side * a) == 2.0 * a;
  }

  /** reset: clear all three buffers (position 0, limit back at capacity). */
  function Reset(r: Renderer): (r': Renderer)
    ensures r'.positions.position == 0 && r'.positions.limit == r'.positions.capacity
    ensures r'.colors.position == 0 && r'.colors.limit == r'.colors.capacity
    ensures r'.weights.position == 0 && r'.weights.limit == r'.weights.capacity
    ensures r' == r.(positions := r'.positions, colors := r'.colors, weights := r'.weights)
    ensures r'.positions.slots == r.positions.slots && r'.colors.slots == r.colors.slots && r'.weights.slots == r.weights.slots
    ensures Valid(r) ==> Valid(r')
  {
    r.(positions := Clear(r.positions), colors := Clear(r.colors), weights := Clear(r.weights))
  }

  /** Resetting twice is resetting once. */
  lemma ResetTwice(r: Renderer)
    ensures Reset(Reset(r)) == Reset(r)
  {
    ClearTwice(r.positions);
    ClearTwice(r.colors);
    ClearTwice(r.weights);
  }
}

=== FILE: render_thread.dfy ===
/** LiquidRenderThread: the flags and dimensions of the render thread and
    one iteration of its pacing loop. Clock readings are parameters, and so
    are the two reads of the paused flag an iteration makes (one before
    drawing, one before sleeping), since another thread may call setPaused
    in between. Times are in milliseconds. */
module RenderThread {

  const INT_MAX: int := 0x7fff_ffff
  const INT_MIN: int := -0x8000_0000

  /** Sleep while paused, and the least sleep while running. */
  const PAUSED_SLEEP_MILLIS: int := 100
  const MIN_SLEEP_MILLIS: int := 10

  datatype Thread = Thread(
    running: bool,
    paused: bool,
    hasThread: bool,
    surfaceWidth: int,
    surfaceHeight: int,
    targetFrameDurationMillis: int,
    forwarded: seq<(int, int)>)

  /** The listener as constructed: not running, paused, no thread; the
      `forwarded` log lists the sizes passed on to the physics loop. */
  const Initial := Thread(false, true, false, 0, 0, 0, [])

  lemma InitialState()
    ensures !Initial.running && Initial.paused && !Initial.hasThread
  {
  }

  /** Java's (int) cast of a finite value: truncation toward zero, saturating
      at the int range. */
  function JavaIntCast(v: real): (n: int)
    ensures INT_MIN <= n <= INT_MAX
    ensures INT_MIN as real <= v <= INT_MAX as real ==> (n as real <= v < n as real + 1.0 || n as real - 1.0 < v <= n as real)
    ensures v >= 0.0 ==> 0 <= n && n as real <= v
    ensures v <= 0.0 ==> n <= 0 && v <= n as real
    ensures v >= INT_MAX as real ==> n == INT_MAX
    ensures v <= INT_MIN as real ==> n == INT_MIN
  {
    var t := if v >= 0.0 then v.Floor else -((-v).Floor);
    if t > INT_MAX then INT_MAX else if t < INT_MIN then INT_MIN else t
  }

  /** (int) ((1f / fps) * 1000): the whole number of milliseconds in one
      frame at the given rate. A zero rate divides to +Infinity, which the
      cast saturates to Integer.MAX_VALUE. Float rounding is not modelled. */
  function FrameDuration(fps: real): (millis: int)
    ensures fps == 0.0 ==> millis == INT_MAX
    ensures fps > 0.0 ==> 0 <= millis && millis as real <= 1000.0 / fps
    ensures fps > 0.0 && 1000.0 / fps <= INT_MAX as real ==> 1000.0 / fps < millis as real + 1.0
    ensures fps > 0.0 && 1000.0 / fps > INT_MAX as real ==> millis == INT_MAX
  {
    if fps == 0.0 then INT_MAX else JavaIntCast(1000.0 / fps)
  }

  /** setDimensions: stores the size as given. */
  function SetDimensions(t: Thread, width: int, height: int): (r: Thread)
    ensures r.surfaceWidth == width && r.surfaceHeight == height
    ensures r == t.(surfaceWidth := r.surfaceWidth, surfaceHeight := r.surfaceHeight)
  {
    t.(surfaceWidth := width, surfaceHeight := height)
  }

  /** setPaused. */
  function SetPaused(t: Thread, isPaused: bool): (r: Thread)
    ensures r.paused == isPaused && r == t.(paused := r.paused)
  {
    t.(paused := isPaused)
  }

  /** startThread: a new thread object, the surface size, the frame budget
      for the target rate, and unpaused, all before the thread starts; the
      `running` flag is raised only by the thread itself (BeginRun). */
  function StartThread(t: Thread, width: int, height: int, targetFramesPerSecond: real): (r: Thread)
    ensures r.hasThread && !r.paused
    ensures r.surfaceWidth == width && r.surfaceHeight == height
    ensures r.targetFrameDurationMillis == FrameDuration(targetFramesPerSecond)
    ensures r.running == t.running && r.forwarded == t.forwarded
  {
    var withThread := t.(hasThread := true);
    var sized := SetDimensions(withThread, width, height);
    var timed := sized.(targetFrameDurationMillis := FrameDuration(targetFramesPerSecond));
    SetPaused(timed, false)
  }

  /** The start of RenderThread.run: the physics loop is told the stored
      surface size, then `running` is raised. */
  function BeginRun(t: Thread): (r: Thread)
    ensures r.running
    ensures r.forwarded == t.forwarded + [(t.surfaceWidth, t.surfaceHeight)]
    ensures r == t.(running := true, forwarded := r.forwarded)
  {
    t.(running := true, forwarded := t.forwarded + [(t.surfaceWidth, t.surfaceHeight)])
  }

  /** stopThread: nothing without a thread; otherwise lower `running` and
      drop the thread (the join is not modelled). */
  function StopThread(t: Thread): (r: Thread)
    ensures !t.hasThread ==> r == t
    ensures t.hasThread ==> !r.running && !r.hasThread && r == t.(running := false, hasThread := false)
    ensures !r.hasThread
  {
    if t.hasThread then t.(running := false, hasThread := false) else t
  }

  /** Stopping twice is stopping once. */
  lemma StopThreadTwice(t: Thread)
    ensures StopThread(StopThread(t)) == StopThread(t)
  {
  }

  /** onSurfaceTextureSizeChanged: store the size, then forward the same size
      to the physics loop. */
  function SizeChanged(t: Thread, width: int, height: int): (r: Thread)
    ensures r.surfaceWidth == width && r.surfaceHeight == height
    ensures |r.forwarded| == |t.forwarded| + 1 && r.forwarded[..|t.forwarded|] == t.forwarded
    ensures r.forwarded[|t.forwarded|] == (r.surfaceWidth, r.surfaceHeight)
    ensures r == t.(surfaceWidth := width, surfaceHeight := height, forwarded := r.forwarded)
  {
    var sized := SetDimensions(t, width, height);
    sized.(forwarded := t.forwarded + [(sized.surfaceWidth, sized.surfaceHeight)])
  }

  datatype Iteration = Iteration(drew: bool, sleepMillis: int, lastFrameTime: int)

  function Max(a: int, b: int): int
  {
    if a >= b then a else b
  }

  /** One pass of the `while (running)` loop. `pausedBeforeDraw` is what
      isPaused() returned and `pausedBeforeSleep` what the later read of
      `paused` saw; `drawStart` and `sleepStart` are the two clock readings. */
  function Iterate(target: int, pausedBeforeDraw: bool, pausedBeforeSleep: bool,
                   lastFrameTime: int, drawStart: int, sleepStart: int): (it: Iteration)
    ensures it.drew <==> !pausedBeforeDraw
    ensures pausedBeforeSleep ==> it.sleepMillis == PAUSED_SLEEP_MILLIS
    ensures pausedBeforeSleep ==> it.lastFrameTime == (if pausedBeforeDraw then lastFrameTime else drawStart)
    ensures !pausedBeforeSleep ==> it.sleepMillis >= MIN_SLEEP_MILLIS && it.lastFrameTime == sleepStart
    ensures !pausedBeforeSleep ==>
      var elapsed := sleepStart - (if pausedBeforeDraw then lastFrameTime else drawStart);
      it.sleepMillis >= target - elapsed &&
      (elapsed <= target - MIN_SLEEP_MILLIS ==> it.sleepMillis == target - elapsed) &&
      (elapsed >= target - MIN_SLEEP_MILLIS ==> it.sleepMillis == MIN_SLEEP_MILLIS)
  {
    var last := if !pausedBeforeDraw then drawStart else lastFrameTime;
    if pausedBeforeSleep then
      Iteration(!pausedBeforeDraw, PAUSED_SLEEP_MILLIS, last)
    else
      var elapsed := sleepStart - last;
      Iteration(!pausedBeforeDraw, Max(MIN_SLEEP_MILLIS, target - elapsed), sleepStart)
  }

  /** Without a concurrent setPaused, a running iteration draws, then sleeps
      so that draw time plus sleep makes up at least the frame budget, exactly
      the budget when drawing took no more than the budget less 10 ms; the
      stale lastFrameTime plays no part. */
  lemma RunningFramePeriod(target: int, lastFrameTime: int, otherLast: int, drawStart: int, sleepStart: int)
    ensures var it := Iterate(target, false, false, lastFrameTime, drawStart, sleepStart);
      it.drew &&
      (sleepStart - drawStart) + it.sleepMillis >= target &&
      (sleepStart - drawStart <= target - MIN_SLEEP_MILLIS ==> (sleepStart - drawStart) + it.sleepMillis == target) &&
      it == Iterate(target, false, false, otherLast, drawStart, sleepStart)
  {
  }

  /** Without a concurrent setPaused, a paused iteration draws nothing,
      sleeps 100 ms and keeps the last frame time. */
  lemma PausedIteration(target: int, lastFrameTime: int, drawStart: int, sleepStart: int)
    ensures Iterate(target, true, true, lastFrameTime, drawStart, sleepStart) == Iteration(false, PAUSED_SLEEP_MILLIS, lastFrameTime)
  {
  }

  /** Whatever the interleaving with setPaused, Thread.sleep gets a positive
      argument, so it never throws IllegalArgumentException. */
  lemma SleepIsPositive(target: int, p1: bool, p2: bool, lastFrameTime: int, drawStart: int, sleepStart: int)
    ensures Iterate(target, p1, p2, lastFrameTime, drawStart, sleepStart).sleepMillis >= MIN_SLEEP_MILLIS > 0
  {
  }
}

=== FILE: world_lock.dfy ===
/** WorldLock: the physics thread's world, its lock, the queue of deferred
    commands applied before each step, and the camera state from which the
    view transforms are derived. Commands are data rather than closures: a
    physics command from a caller (opaque, identified by a tag), a camera
    translation, a camera rotation, and the single "update transformations"
    sentinel. The transforms are represented by the camera they were derived
    from and their scalar scale factors; the matrices themselves are left to
    android.opengl.Matrix. */
module WorldLock {
  import opened Engine
  import opened Locks

  const WORLD_SCALE: real := 2.0
  const TIME_STEP: real := 1.0 / 120.0
  const VELOCITY_ITERATIONS: int := 6
  const POSITION_ITERATIONS: int := 2
  const PARTICLE_ITERATIONS: int := 5

  datatype Point3 = Point3(x: real, y: real, z: real)

  function Plus(a: Point3, b: Point3): Point3
  {
    Point3(a.x + b.x, a.y + b.y, a.z + b.z)
  }

  function Minus(a: Point3, b: Point3): Point3
  {
    Point3(a.x - b.x, a.y - b.y, a.z - b.z)
  }

  datatype Camera = Camera(position: Point3, lookAt: Point3, tiltDegrees: real, panDegrees: real)

  const INITIAL_CAMERA := Camera(Point3(0.0, 0.3, -1.0), Point3(0.0, -0.2, 0.0), 0.0, 0.0)

  /** The commands a caller can queue. The physics commands stand for the
      `Runnable`s the app hands to addPhysicsCommand: each edits the world
      through the engine (a new body with its fixtures, a removed body, a
      new gravity). */
  datatype Cmd =
    | CreateBodyCmd(kind: BodyKind, shapes: seq<Shape>)
    | DestroyBodyCmd(id: nat)
    | SetGravityCmd(gx: real, gy: real)
    | Translate(dx: real, dy: real, dz: real)
    | Rotate(pan: real, tilt: real)
    | UpdateTransformations

  predicate IsCameraEdit(c: Cmd)
  {
    c.Translate? || c.Rotate?
  }

  predicate IsPhysics(c: Cmd)
  {
    c.CreateBodyCmd? || c.DestroyBodyCmd? || c.SetGravityCmd?
  }

  /** A command that has run, with the hold count of the world lock while it
      ran. */
  datatype Executed = Executed(cmd: Cmd, lockHolds: nat)

  /** The log entries of running the commands of q at hold count h. */
  function Stamped(q: seq<Cmd>, h: nat): seq<Executed>
  {
    if q == [] then [] else Stamped(q[..|q| - 1], h) + [Executed(q[|q| - 1], h)]
  }

  /** Every entry of Stamped(q, h) is the command at the same index, run at h. */
  lemma {:induction false} StampedEntries(q: seq<Cmd>, h: nat)
    ensures |Stamped(q, h)| == |q|
    ensures forall i | 0 <= i < |q| :: Stamped(q, h)[i] == Executed(q[i], h)
  {
    if q != [] {
      StampedEntries(q[..|q| - 1], h);
    }
  }

  /** The screen world: its extents and the screen's height/width ratio. */
  datatype ScreenWorld = ScreenWorld(width: PosReal, height: PosReal, ratio: PosReal)

  const INITIAL_SCREEN := ScreenWorld(WORLD_SCALE, WORLD_SCALE, 1.0)

  /** What updateTransformations derives: the camera it used, the x/y scale
      of the draw-to-screen transform, of the particle transform, and of the
      unstretched solid-world transform. */
  datatype Transforms = Transforms(camera: Camera, screenScale: Vec2, particleScale: Vec2, solidScale: Vec2)

  datatype State = State(
    world: Option<World>,
    lock: Lock,
    pending: seq<Cmd>,
    camera: Camera,
    screen: ScreenWorld,
    transforms: Option<Transforms>,
    recomputations: nat,
    executed: seq<Executed>)

  /** The singleton as constructed: no world, nothing queued, transforms never
      computed. */
  const Initial := State(None, Unlocked, [], INITIAL_CAMERA, INITIAL_SCREEN, None, 0, [])

  // ---------------------------------------------------------------- transforms

  /** Scale part of the particle transform: the orientation scale, then
      1/WORLD_SCALE, then the screen-ratio normalisation, multiplied in the
      order the code applies them. */
  function ParticleScale(ratio: PosReal): (v: Vec2)
    ensures v.x == v.y && v.x > 0.0
  {
    if ratio < 1.0 then
      Vec2(1.0 * (1.0 / WORLD_SCALE) * ratio, ratio * (1.0 / WORLD_SCALE) * 1.0)
    else
      Vec2((1.0 / ratio) * (1.0 / WORLD_SCALE) * 1.0, 1.0 * (1.0 / WORLD_SCALE) * (1.0 / ratio))
  }

  /** updateTransformations: recompute every transform from the current camera
      and screen world. */
  function Derive(camera: Camera, screen: ScreenWorld): (t: Transforms)
    ensures t.camera == camera
    ensures t.particleScale.x == t.particleScale.y
    ensures t.solidScale.x * screen.width == 1.0 && t.solidScale.y * screen.height == 1.0
  {
    var r := screen.ratio;
    Transforms(
      camera,
      if r > 1.0 then Vec2(r, 1.0) else Vec2(1.0, 1.0 / r),
      ParticleScale(r),
      Vec2(1.0 / screen.width, 1.0 / screen.height))
  }

  // ---------------------------------------------------------------- commands

  /** The effect of a physics command on the world. The app's commands run
      against a live world; with no world there is nothing to edit. */
  function EditWorld(w: World, c: Cmd): (r: World)
    requires IsPhysics(c)
    ensures c.CreateBodyCmd? ==>
      (w.nextBodyId !in w.bodies && r.bodies == w.bodies[w.nextBodyId := Body(c.kind, c.shapes)] && r.gravity == w.gravity)
    ensures c.DestroyBodyCmd? ==> r.bodies == w.bodies - {c.id} && r.gravity == w.gravity
    ensures c.SetGravityCmd? ==> r.bodies == w.bodies && r.gravity == Vec2(c.gx, c.gy)
    ensures r.steps == w.steps
  {
    match c
    case CreateBodyCmd(kind, shapes) =>
      var (w1, id) := CreateBody(w, kind);
      assert [] + shapes == shapes;
      CreateFixtures(w1, id, shapes)
    case DestroyBodyCmd(id) => DestroyBody(w, id)
    case SetGravityCmd(gx, gy) => Engine.SetGravity(w, gx, gy)
  }

  /** Running one command: physics commands edit the world, camera edits move
      the camera, the sentinel recomputes the transforms; the command is
      logged with the lock's current hold count. */
  function Apply(s: State, c: Cmd): (r: State)
    ensures r.executed == s.executed + [Executed(c, s.lock.holds)]
    ensures r.lock == s.lock && r.pending == s.pending && r.screen == s.screen
    ensures r.world.Some? <==> s.world.Some?
    ensures IsPhysics(c) && s.world.Some? ==> r.world.value == EditWorld(s.world.value, c)
    ensures !IsPhysics(c) ==> r.world == s.world
    ensures !IsCameraEdit(c) ==> r.camera == s.camera
    ensures c != UpdateTransformations ==> r.transforms == s.transforms && r.recomputations == s.recomputations
    ensures c == UpdateTransformations ==>
      r.transforms == Some(Derive(s.camera, s.screen)) && r.recomputations == s.recomputations + 1
  {
    var s' := s.(executed := s.executed + [Executed(c, s.lock.holds)]);
    match c
    case CreateBodyCmd(_, _) => s'.(world := if s.world.Some? then Some(EditWorld(s.world.value, c)) else None)
    case DestroyBodyCmd(_) => s'.(world := if s.world.Some? then Some(EditWorld(s.world.value, c)) else None)
    case SetGravityCmd(_, _) => s'.(world := if s.world.Some? then Some(EditWorld(s.world.value, c)) else None)
    case Translate(dx, dy, dz) =>
      var d := Point3(dx, dy, dz);
      s'.(camera := s.camera.(position := Plus(s.camera.position, d), lookAt := Plus(s.camera.lookAt, d)))
    case Rotate(pan, tilt) =>
      s'.(camera := s.camera.(tiltDegrees := tilt, panDegrees := pan))
    case UpdateTransformations =>
      s'.(transforms := Some(Derive(s.camera, s.screen)), recomputations := s.recomputations + 1)
  }

  /** Reference definition: running the commands of q one after the other. */
  function ApplyAll(s: State, q: seq<Cmd>): State
  {
    if q == [] then s else Apply(ApplyAll(s, q[..|q| - 1]), q[|q| - 1])
  }

  /** Running a queue logs exactly its commands, in order, each at the
      lock's hold count; it keeps a world present (or absent) and touches
      neither the lock, the queue nor the screen. */
  lemma {:induction false} ApplyAllLogs(s: State, q: seq<Cmd>)
    ensures ApplyAll(s, q).executed == s.executed + Stamped(q, s.lock.holds)
    ensures ApplyAll(s, q).world.Some? <==> s.world.Some?
    ensures ApplyAll(s, q).lock == s.lock
    ensures ApplyAll(s, q).pending == s.pending && ApplyAll(s, q).screen == s.screen
  {
    if q != [] {
      ApplyAllLogs(s, q[..|q| - 1]);
    }
  }

  /** A queue without physics commands leaves the world as it was. */
  lemma {:induction false} CameraCommandsKeepWorld(s: State, q: seq<Cmd>)
    requires forall i | 0 <= i < |q| :: !IsPhysics(q[i])
    ensures ApplyAll(s, q).world == s.world
  {
    if q != [] {
      CameraCommandsKeepWorld(s, q[..|q| - 1]);
    }
  }

  /** The last gravity command of a queue run against a world decides the
      gravity afterwards. */
  lemma QueuedGravityWins(s: State, q: seq<Cmd>, gx: real, gy: real, rest: seq<Cmd>)
    requires s.world.Some?
    requires forall i | 0 <= i < |rest| :: !rest[i].SetGravityCmd?
    ensures ApplyAll(s, q + [SetGravityCmd(gx, gy)] + rest).world.Some?
    ensures ApplyAll(s, q + [SetGravityCmd(gx, gy)] + rest).world.value.gravity == Vec2(gx, gy)
  {
    var t := ApplyAll(s, q + [SetGravityCmd(gx, gy)]);
    assert (q + [SetGravityCmd(gx, gy)])[..|q|] == q;
    ApplyAllLogs(s, q);
    ApplyAllLogs(s, q + [SetGravityCmd(gx, gy)]);
    ApplyAllSplit(s, q + [SetGravityCmd(gx, gy)], rest);
    GravityKept(t, rest);
  }

  /** Commands other than gravity commands keep the gravity. */
  lemma {:induction false} GravityKept(s: State, q: seq<Cmd>)
    requires s.world.Some?
    requires forall i | 0 <= i < |q| :: !q[i].SetGravityCmd?
    ensures ApplyAll(s, q).world.Some? && ApplyAll(s, q).world.value.gravity == s.world.value.gravity
  {
    if q != [] {
      GravityKept(s, q[..|q| - 1]);
      ApplyAllLogs(s, q[..|q| - 1]);
    }
  }

  /** Running a + b is running a, then b. */
  lemma {:induction false} ApplyAllSplit(s: State, a: seq<Cmd>, b: seq<Cmd>)
    ensures ApplyAll(s, a + b) == ApplyAll(ApplyAll(s, a), b)
  {
    if b == [] {
      assert a + b == a;
    } else {
      assert (a + b)[..|a + b| - 1] == a + b[..|b| - 1];
      ApplyAllSplit(s, a, b[..|b| - 1]);
    }
  }

  /** The number of transform recomputations a queue performs is the number of
      sentinels in it. */
  lemma {:induction false} RecomputationsCountSentinels(s: State, q: seq<Cmd>)
    ensures ApplyAll(s, q).recomputations == s.recomputations + multiset(q)[UpdateTransformations]
  {
    if q != [] {
      RecomputationsCountSentinels(s, q[..|q| - 1]);
      assert q == q[..|q| - 1] + [q[|q| - 1]];
    }
  }

  /** A queue ending with the sentinel leaves transforms derived from the final
      camera. */
  lemma TransformsFollowFinalCamera(s: State, q: seq<Cmd>)
    requires q != [] && q[|q| - 1] == UpdateTransformations
    ensures ApplyAll(s, q).transforms == Some(Derive(ApplyAll(s, q).camera, s.screen))
  {
    ApplyAllLogs(s, q[..|q| - 1]);
  }

  /** runPendingRunnables: poll and run commands until the queue is empty. */
  method RunPendingRunnables(s: State) returns (r: State)
    ensures r.pending == []
    ensures r.executed == s.executed + Stamped(s.pending, s.lock.holds)
    ensures r == ApplyAll(s, s.pending).(pending := [])
  {
    r := s;
    var i := 0;
    while r.pending != []
      invariant 0 <= i <= |s.pending|
      invariant r == ApplyAll(s, s.pending[..i]).(pending := s.pending[i..])
      decreases |r.pending|
    {
      var c := r.pending[0];
      assert s.pending[..i + 1] == s.pending[..i] + [c];
      r := Apply(r.(pending := r.pending[1..]), c);
      i := i + 1;
    }
    assert s.pending[..i] == s.pending;
    ApplyAllLogs(s, s.pending);
  }

  // ---------------------------------------------------------------- queue edits

  /** The queue without any sentinel. */
  function Without(q: seq<Cmd>, c: Cmd): (r: seq<Cmd>)
  {
    if q == [] then [] else (if q[0] == c then [] else [q[0]]) + Without(q[1..], c)
  }

  lemma {:induction false} WithoutAppend(a: seq<Cmd>, b: seq<Cmd>, c: Cmd)
    ensures Without(a + b, c) == Without(a, c) + Without(b, c)
  {
    if a != [] {
      var head := if a[0] == c then [] else [a[0]];
      WithoutAppend(a[1..], b, c);
      calc {
        Without(a + b, c);
        == { assert (a + b)[0] == a[0] && (a + b)[1..] == a[1..] + b; }
        head + Without(a[1..] + b, c);
        == // induction hypothesis
        head + (Without(a[1..], c) + Without(b, c));
        ==
        (head + Without(a[1..], c)) + Without(b, c);
      }
    } else {
      assert a + b == b;
    }
  }

  /** Queue.remove: drops the first occurrence, if any. */
  function RemoveFirst(q: seq<Cmd>, c: Cmd): seq<Cmd>
  {
    if q == [] then []
    else if q[0] == c then q[1..]
    else [q[0]] + RemoveFirst(q[1..], c)
  }

  lemma {:induction false} RemoveFirstCount(q: seq<Cmd>, c: Cmd)
    ensures multiset(RemoveFirst(q, c)) == multiset(q) - multiset{c}
  {
    if q != [] {
      assert q == [q[0]] + q[1..];
      if q[0] != c {
        RemoveFirstCount(q[1..], c);
        calc {
          multiset(RemoveFirst(q, c));
          multiset([q[0]]) + multiset(RemoveFirst(q[1..], c));
          multiset([q[0]]) + (multiset(q[1..]) - multiset{c});
          multiset(q) - multiset{c};
        }
      }
    }
  }

  lemma {:induction false} RemoveFirstKeepsOthers(q: seq<Cmd>, c: Cmd)
    ensures Without(RemoveFirst(q, c), c) == Without(q, c)
  {
    if q != [] && q[0] != c {
      RemoveFirstKeepsOthers(q[1..], c);
      WithoutAppend([q[0]], RemoveFirst(q[1..], c), c);
      assert Without([q[0]], c) == [q[0]];
    }
  }

  /** addPhysicsCommand: append at the tail. */
  function AddPhysicsCommand(s: State, c: Cmd): (r: State)
    ensures |r.pending| == |s.pending| + 1
    ensures r.pending[..|s.pending|] == s.pending && r.pending[|s.pending|] == c
    ensures r.(pending := s.pending) == s
  {
    s.(pending := s.pending + [c])
  }

  /** addCameraCommand: append the edit, drop the pending sentinel if there is
      one, and append a fresh sentinel. */
  function AddCameraCommand(s: State, c: Cmd): (r: State)
    requires IsCameraEdit(c)
    ensures |r.pending| >= 2 && r.pending[|r.pending| - 2] == c && r.pending[|r.pending| - 1] == UpdateTransformations
    ensures multiset(r.pending)[UpdateTransformations] ==
      if multiset(s.pending)[UpdateTransformations] == 0 then 1 else multiset(s.pending)[UpdateTransformations]
    ensures Without(r.pending, UpdateTransformations) == Without(s.pending, UpdateTransformations) + [c]
    ensures r.(pending := s.pending) == s
  {
    s.(pending := CameraQueue(s.pending, c))
  }

  /** The queue after addCameraCommand: `c` appended, any earlier sentinel
      removed, and one sentinel appended behind `c`. */
  function CameraQueue(q: seq<Cmd>, c: Cmd): (r: seq<Cmd>)
    requires IsCameraEdit(c)
    ensures |r| >= 2 && r[|r| - 2] == c && r[|r| - 1] == UpdateTransformations
    ensures multiset(r)[UpdateTransformations] ==
      if multiset(q)[UpdateTransformations] == 0 then 1 else multiset(q)[UpdateTransformations]
    ensures Without(r, UpdateTransformations) == Without(q, UpdateTransformations) + [c]
  {
    var q1 := q + [c];
    var q2 := if UpdateTransformations in q1 then RemoveFirst(q1, UpdateTransformations) else q1;
    var q3 := q2 + [UpdateTransformations];
    CameraQueueFacts(q, c, q1, q2, q3);
    q3
  }

  lemma CameraQueueFacts(q: seq<Cmd>, c: Cmd, q1: seq<Cmd>, q2: seq<Cmd>, q3: seq<Cmd>)
    requires IsCameraEdit(c)
    requires q1 == q + [c]
    requires q2 == if UpdateTransformations in q1 then RemoveFirst(q1, UpdateTransformations) else q1
    requires q3 == q2 + [UpdateTransformations]
    ensures |q3| >= 2 && q3[|q3| - 2] == c
    ensures multiset(q3)[UpdateTransformations] ==
      if multiset(q)[UpdateTransformations] == 0 then 1 else multiset(q)[UpdateTransformations]
    ensures Without(q3, UpdateTransformations) == Without(q, UpdateTransformations) + [c]
  {
    var u := UpdateTransformations;
    assert |q3| >= 2 && q3[|q3| - 2] == c by {
      if u in q1 {
        StaleSentinelDropped(q, c, q2);
      }
    }
    assert multiset(q3)[u] == if multiset(q)[u] == 0 then 1 else multiset(q)[u] by {
      SentinelAppended(q2, q3);
      if u in q1 {
        StaleSentinelDropped(q, c, q2);
      } else {
        assert multiset(q1) == multiset(q) + multiset{c};
      }
    }
    assert Without(q3, u) == Without(q, u) + [c] by {
      WithoutAppend(q, [c], u);
      assert Without([c], u) == [c];
      SentinelAppended(q2, q3);
      if u in q1 {
        StaleSentinelDropped(q, c, q2);
      }
    }
  }

  /** Appending the sentinel adds one sentinel and no other command. */
  lemma SentinelAppended(p: seq<Cmd>, p3: seq<Cmd>)
    requires p3 == p + [UpdateTransformations]
    ensures |p3| >= 1 && p3[|p3| - 1] == UpdateTransformations && p3[..|p|] == p
    ensures multiset(p3)[UpdateTransformations] == multiset(p)[UpdateTransformations] + 1
    ensures Without(p3, UpdateTransformations) == Without(p, UpdateTransformations)
  {
    WithoutAppend(p, [UpdateTransformations], UpdateTransformations);
    assert Without([UpdateTransformations], UpdateTransformations) == [];
  }

  /** With a sentinel pending, the queue after the removal ends with the edit,
      holds one sentinel fewer, and keeps every other command. */
  lemma StaleSentinelDropped(q: seq<Cmd>, c: Cmd, q2: seq<Cmd>)
    requires IsCameraEdit(c) && UpdateTransformations in q + [c]
    requires q2 == RemoveFirst(q + [c], UpdateTransformations)
    ensures |q2| >= 1 && q2[|q2| - 1] == c
    ensures multiset(q2)[UpdateTransformations] + 1 == multiset(q)[UpdateTransformations]
    ensures Without(q2, UpdateTransformations) == Without(q + [c], UpdateTransformations)
  {
    var u := UpdateTransformations;
    assert u in q;
    RemoveFirstTail(q, c, u);
    RemoveFirstCount(q + [c], u);
    RemoveFirstKeepsOthers(q + [c], u);
    assert multiset(q + [c])[u] == multiset(q)[u];
  }

  /** Removing the first sentinel from q + [c] keeps c last. */
  lemma {:induction false} RemoveFirstTail(q: seq<Cmd>, c: Cmd, u: Cmd)
    requires u in q && c != u
    ensures RemoveFirst(q + [c], u) == RemoveFirst(q, u) + [c]
  {
    assert (q + [c])[0] == q[0];
    if q[0] != u {
      assert (q + [c])[1..] == q[1..] + [c];
      RemoveFirstTail(q[1..], c, u);
    } else {
      assert (q + [c])[1..] == q[1..] + [c];
    }
  }

  /** clearPhysicsCommands. */
  function ClearPhysicsCommands(s: State): (r: State)
    ensures r.pending == []
    ensures r.(pending := s.pending) == s
  {
    s.(pending := [])
  }

  /** translateCamera: queue a translation of both position and look-at. */
  function TranslateCamera(s: State, x: real, y: real, z: real): (r: State)
    ensures |r.pending| >= 2 && r.pending[|r.pending| - 2] == Translate(x, y, z)
    ensures r.pending[|r.pending| - 1] == UpdateTransformations
    ensures r.camera == s.camera
  {
    AddCameraCommand(s, Translate(x, y, z))
  }

  /** rotateCamera: queue an overwrite of tilt and pan. */
  function RotateCamera(s: State, pan: real, tilt: real): (r: State)
    ensures |r.pending| >= 2 && r.pending[|r.pending| - 2] == Rotate(pan, tilt)
    ensures r.pending[|r.pending| - 1] == UpdateTransformations
    ensures r.camera == s.camera
  {
    AddCameraCommand(s, Rotate(pan, tilt))
  }

  predicate AllCameraEdits(cs: seq<Cmd>)
  {
    forall c | c in cs :: IsCameraEdit(c)
  }

  /** Queueing a batch of camera edits one after the other. */
  function AddCameraCommands(s: State, cs: seq<Cmd>): State
    requires AllCameraEdits(cs)
  {
    if cs == [] then s else AddCameraCommand(AddCameraCommands(s, cs[..|cs| - 1]), cs[|cs| - 1])
  }

  /** However many camera edits are queued, exactly one sentinel is pending
      afterwards, it is last, and the edits are queued in order. */
  lemma {:induction false} CameraBatchHasOneSentinel(s: State, cs: seq<Cmd>)
    requires AllCameraEdits(cs)
    requires multiset(s.pending)[UpdateTransformations] <= 1
    requires cs != []
    ensures multiset(AddCameraCommands(s, cs).pending)[UpdateTransformations] == 1
    ensures |AddCameraCommands(s, cs).pending| > 0
    ensures AddCameraCommands(s, cs).pending[|AddCameraCommands(s, cs).pending| - 1] == UpdateTransformations
  {
    var init := cs[..|cs| - 1];
    if init != [] {
      CameraBatchHasOneSentinel(s, init);
    }
  }

  /** The edits of a batch are queued in order, after what was pending. */
  lemma {:induction false} CameraBatchKeepsOrder(s: State, cs: seq<Cmd>)
    requires AllCameraEdits(cs)
    ensures Without(AddCameraCommands(s, cs).pending, UpdateTransformations) ==
      Without(s.pending, UpdateTransformations) + cs
  {
    if cs != [] {
      var init := cs[..|cs| - 1];
      var last := cs[|cs| - 1];
      var t := AddCameraCommands(s, init);
      CameraBatchKeepsOrder(s, init);
      AppendLast(Without(s.pending, UpdateTransformations), Without(t.pending, UpdateTransformations),
                 Without(AddCameraCommand(t, last).pending, UpdateTransformations), cs);
    }
  }

  lemma AppendLast(w: seq<Cmd>, a: seq<Cmd>, b: seq<Cmd>, cs: seq<Cmd>)
    requires cs != [] && a == w + cs[..|cs| - 1] && b == a + [cs[|cs| - 1]]
    ensures b == w + cs
  {
    assert cs == cs[..|cs| - 1] + [cs[|cs| - 1]];
  }

  /** Draining a batch of camera edits recomputes the transforms exactly once,
      from the final camera. */
  lemma CameraBatchRecomputesOnce(s: State, cs: seq<Cmd>)
    requires AllCameraEdits(cs)
    requires s.pending == []
    requires cs != []
    ensures ApplyAll(AddCameraCommands(s, cs), AddCameraCommands(s, cs).pending).recomputations == s.recomputations + 1
    ensures var t := AddCameraCommands(s, cs);
      ApplyAll(t, t.pending).transforms == Some(Derive(ApplyAll(t, t.pending).camera, s.screen))
  {
    CameraBatchHasOneSentinel(s, cs);
    var t := AddCameraCommands(s, cs);
    AddCameraCommandsKeepsRest(s, cs);
    RecomputationsCountSentinels(t, t.pending);
    TransformsFollowFinalCamera(t, t.pending);
  }

  lemma {:induction false} AddCameraCommandsKeepsRest(s: State, cs: seq<Cmd>)
    requires AllCameraEdits(cs)
    ensures AddCameraCommands(s, cs).(pending := s.pending) == s
  {
    if cs != [] {
      AddCameraCommandsKeepsRest(s, cs[..|cs| - 1]);
    }
  }

  /** The only way to add the sentinel is addCameraCommand, so at most one is
      ever pending. */
  predicate QueueInvariant(s: State)
  {
    multiset(s.pending)[UpdateTransformations] <= 1
  }

  lemma QueueInvariantPreserved(s: State, c: Cmd, x: real, y: real, z: real, pan: real, tilt: real,
                                w: PosReal, h: PosReal)
    requires QueueInvariant(s)
    ensures c != UpdateTransformations ==> QueueInvariant(AddPhysicsCommand(s, c))
    ensures QueueInvariant(TranslateCamera(s, x, y, z))
    ensures QueueInvariant(RotateCamera(s, pan, tilt))
    ensures QueueInvariant(ClearPhysicsCommands(s))
    ensures QueueInvariant(ResetWorld(s))
    ensures QueueInvariant(SetWorldDimensions(s, w, h))
  {
    assert multiset(s.pending + [c]) == multiset(s.pending) + multiset{c};
  }

  // ---------------------------------------------------------------- camera

  /** getCameraDistance: how far the camera sits behind the plane z = -1. */
  function GetCameraDistance(s: State): (d: real)
    ensures d > 0.0 <==> s.camera.position.z < -1.0
    ensures d == 0.0 <==> s.camera.position.z == -1.0
  {
    -1.0 * (s.camera.position.z + 1.0)
  }

  lemma InitialCameraDistance()
    ensures GetCameraDistance(Initial) == 0.0
  {
  }

  /** A translation moves position and look-at together: the viewing direction
      is unchanged and the camera distance changes by -dz. */
  lemma TranslateKeepsViewDirection(s: State, dx: real, dy: real, dz: real)
    ensures var r := Apply(s, Translate(dx, dy, dz));
      Minus(r.camera.lookAt, r.camera.position) == Minus(s.camera.lookAt, s.camera.position)
    ensures GetCameraDistance(Apply(s, Translate(dx, dy, dz))) == GetCameraDistance(s) - dz
    ensures var r := Apply(s, Translate(dx, dy, dz));
      r.camera.tiltDegrees == s.camera.tiltDegrees && r.camera.panDegrees == s.camera.panDegrees
  {
  }

  /** A rotation overwrites tilt and pan: the previous angles do not matter,
      and of two rotations only the later one counts. */
  lemma RotateOverwrites(s: State, pan1: real, tilt1: real, pan2: real, tilt2: real)
    ensures Apply(s, Rotate(pan1, tilt1)).camera ==
      s.camera.(tiltDegrees := tilt1, panDegrees := pan1)
    ensures Apply(Apply(s, Rotate(pan1, tilt1)), Rotate(pan2, tilt2)).camera ==
      Apply(s, Rotate(pan2, tilt2)).camera
  {
  }

  // ---------------------------------------------------------------- world

  /** createWorld: a new world with zero gravity, without taking the lock. */
  function CreateWorld(s: State): (r: State)
    ensures r.world.Some? && r.world.value.bodies == map[] && r.world.value.steps == []
    ensures r.(world := s.world) == s
  {
    s.(world := Some(NewWorld(0.0, 0.0)))
  }

  /** deleteWorld (private): under the lock, delete the world if there is one. */
  function DeleteWorld(s: State): (r: State)
    ensures r.world.None?
    ensures Scoped(s.lock, r.lock)
    ensures r.lock.log == s.lock.log + [Acquire, Release]
    ensures r.(world := s.world, lock := s.lock) == s
  {
    LockUnlock(s.lock);
    s.(world := None, lock := ReleaseLock(AcquireLock(s.lock)))
  }

  /** resetWorld: under the lock, delete the world (which takes the lock a
      second time) and create a new one. */
  function ResetWorld(s: State): (r: State)
    ensures r.world.Some? && r.world.value == NewWorld(0.0, 0.0)
    ensures Scoped(s.lock, r.lock)
    ensures r.lock.log == s.lock.log + [Acquire, Acquire, Release, Release]
    ensures r.(world := s.world, lock := s.lock) == s
  {
    var locked := s.(lock := AcquireLock(s.lock));
    var s1 := DeleteWorld(locked);
    var s2 := CreateWorld(s1);
    WrapScoped(s.lock, s1.lock);
    NestedSection(s.lock.log, locked.lock.log, s1.lock.log, ReleaseLock(s1.lock).log);
    s2.(lock := ReleaseLock(s2.lock))
  }

  /** A lock/unlock pair nested inside an outer lock/unlock pair. */
  lemma NestedSection(t0: seq<Event>, t1: seq<Event>, t2: seq<Event>, t3: seq<Event>)
    requires t1 == t0 + [Acquire] && t2 == t1 + [Acquire, Release] && t3 == t2 + [Release]
    ensures t3 == t0 + [Acquire, Acquire, Release, Release]
  {
  }

  /** stepWorld: take the lock, drain the queue, step the world with the fixed
      time step and iteration counts, release the lock. Every queued command
      runs with the lock held, and the step integrates the world those
      commands left. Stepping a null world throws, after the drain; the lock
      is still released. */
  method StepWorld(s: State) returns (r: State, outcome: Outcome)
    ensures Scoped(s.lock, r.lock)
    ensures r.lock.log == s.lock.log + [Acquire, Release]
    ensures r.pending == [] && r.executed == s.executed + Stamped(s.pending, s.lock.holds + 1)
    ensures r.camera == ApplyAll(s, s.pending).camera && r.transforms == ApplyAll(s, s.pending).transforms
    ensures r.screen == s.screen && r.recomputations == ApplyAll(s, s.pending).recomputations
    ensures outcome == NullPointer <==> s.world.None?
    ensures r.world.None? <==> s.world.None?
    ensures s.world.Some? ==>
      (ApplyAll(s, s.pending).world.Some? &&
       r.world.value == Step(ApplyAll(s, s.pending).world.value, TIME_STEP, VELOCITY_ITERATIONS, POSITION_ITERATIONS,
                             PARTICLE_ITERATIONS, s.lock.holds + 1))
  {
    var locked := s.(lock := AcquireLock(s.lock));
    var drained := RunPendingRunnables(locked);
    ApplyAllLogs(locked, locked.pending);
    ApplyAllLogs(s, s.pending);
    ApplyAllIgnoresLock(s, locked, s.pending);
    LockUnlock(s.lock);
    if drained.world.None? {
      outcome := NullPointer;
      r := drained.(lock := ReleaseLock(drained.lock));
    } else {
      var w := Step(drained.world.value, TIME_STEP, VELOCITY_ITERATIONS, POSITION_ITERATIONS,
                    PARTICLE_ITERATIONS, drained.lock.holds);
      outcome := Completed;
      r := drained.(world := Some(w), lock := ReleaseLock(drained.lock));
    }
  }

  /** Running commands does not depend on the lock, except for the hold count
      the log records. */
  lemma {:induction false} ApplyAllIgnoresLock(s: State, t: State, q: seq<Cmd>)
    requires t == s.(lock := t.lock)
    ensures ApplyAll(t, q).world == ApplyAll(s, q).world
    ensures ApplyAll(t, q).camera == ApplyAll(s, q).camera
    ensures ApplyAll(t, q).transforms == ApplyAll(s, q).transforms
    ensures ApplyAll(t, q).recomputations == ApplyAll(s, q).recomputations
    ensures ApplyAll(t, q).screen == ApplyAll(s, q).screen
  {
    if q != [] {
      ApplyAllIgnoresLock(s, t, q[..|q| - 1]);
    }
  }

  /** setGravity: under the lock; throws on a null world. */
  function SetGravity(s: State, gx: real, gy: real): (r: (State, Outcome))
    ensures Scoped(s.lock, r.0.lock)
    ensures r.0.lock.log == s.lock.log + [Acquire, Release]
    ensures r.1 == NullPointer <==> s.world.None?
    ensures r.0.world.Some? <==> s.world.Some?
    ensures r.0.world.Some? ==> r.0.world.value.gravity == Vec2(gx, gy) && r.0.world.value.bodies == s.world.value.bodies
    ensures r.0.world.Some? ==> r.0.world.value.steps == s.world.value.steps
    ensures r.0.(world := s.world, lock := s.lock) == s
  {
    LockUnlock(s.lock);
    var l := ReleaseLock(AcquireLock(s.lock));
    if s.world.None? then (s.(lock := l), NullPointer)
    else (s.(world := Some(Engine.SetGravity(s.world.value, gx, gy)), lock := l), Completed)
  }

  // ---------------------------------------------------------------- dimensions

  /** A side scaled by WORLD_SCALE over the shorter one. */
  lemma ScaledSide(a: PosReal, b: PosReal)
    ensures (a * WORLD_SCALE / b) * b == WORLD_SCALE * a
    ensures a > b ==> a * WORLD_SCALE / b > WORLD_SCALE
    ensures a >= b ==> a * WORLD_SCALE / b >= WORLD_SCALE
  {
    var q := a * 2.0 / b;
    assert q * b == a * 2.0;
    assert (q - 2.0) * b == (a - b) * 2.0;
    if a > b {
      assert (q - 2.0) * b > 0.0;
    }
    if a >= b {
      assert (q - 2.0) * b >= 0.0;
    }
  }

  /** The screen world for a screen of the given size: the shorter side spans
      WORLD_SCALE and the longer one scales in proportion. */
  function ScreenWorldFor(w: PosReal, h: PosReal): (sw: ScreenWorld)
    ensures sw.ratio * w == h
    ensures h < w ==> sw.height == WORLD_SCALE && sw.width > WORLD_SCALE
    ensures h >= w ==> sw.width == WORLD_SCALE && sw.height >= WORLD_SCALE
    ensures sw.width * h == sw.height * w
  {
    var ratio: PosReal := h / w;
    if h < w then
      ScaledSide(w, h);
      ScreenWorld(w * WORLD_SCALE / h, WORLD_SCALE, ratio)
    else
      ScaledSide(h, w);
      ScreenWorld(WORLD_SCALE, h * WORLD_SCALE / w, ratio)
  }

  /** setWorldDimensions: set the screen world and recompute the transforms at
      once, on the calling thread, from the current camera. */
  function SetWorldDimensions(s: State, w: PosReal, h: PosReal): (r: State)
    ensures r.screen.ratio * w == h
    ensures h < w ==> r.screen.height == WORLD_SCALE
    ensures h >= w ==> r.screen.width == WORLD_SCALE
    ensures r.screen.width * h == r.screen.height * w
    ensures r.transforms == Some(Derive(s.camera, r.screen))
    ensures r.recomputations == s.recomputations + 1
    ensures r.(screen := s.screen, transforms := s.transforms, recomputations := s.recomputations) == s
  {
    var s1 := s.(screen := ScreenWorldFor(w, h));
    s1.(transforms := Some(Derive(s1.camera, s1.screen)), recomputations := s1.recomputations + 1)
  }

  /** The solid-world transform maps the screen world onto the unit square, so
      a world unit covers the same number of pixels along both axes. */
  lemma SolidsAreNotStretched(s: State, w: PosReal, h: PosReal)
    ensures var t := SetWorldDimensions(s, w, h).transforms.value;
      t.solidScale.x * w == t.solidScale.y * h
  {
    var sw := ScreenWorldFor(w, h);
    var t := Derive(s.camera, sw);
    assert t.solidScale.x * sw.width == 1.0 && t.solidScale.y * sw.height == 1.0;
    calc {
      t.solidScale.x * w * sw.height;
      t.solidScale.x * (sw.width * h);
      (t.solidScale.x * sw.width) * h;
      h;
      t.solidScale.y * sw.height * h;
    }
    assert sw.height > 0.0;
  }
}
